=== FILE: README.md ===
# seclab-taskflows: CodeQL source cache and advisory filter, in Dafny

This project models the deterministic core of two MCP servers from
seclab-taskflows and proves properties of that model.

The first is the CodeQL-for-Python server. Its core is:

- the `source` table of taint sources found by CodeQL, keyed by repository and location;
- the merge primitive `store_new_source`, with its two modes:
  - "record" adds a source when none exists at that key;
  - "annotate-only" never adds one;
  - in both modes an existing source gets the new notes appended;
- the listing (`get_sources`) and the per-repository delete (`clear_codeql_repo`);
- the decoder `_csv_parse`, which turns templated query output into one field map per row, or a single error string;
- the path handling `_resolve_db_path` and `_resolve_query_path`;
- the `file:///` fix-up in `get_file_contents`;
- the tools that tie these together: `_run_query`, `remote_sources`, `fetch_sources`, `add_source_notes` and `clear_codeql_repo`.

The second is the security-advisories server. Its core is:

- the recency test `is_recent_advisory`;
- the projection filter `filter_advisories`;
- the loop in `get_security_advisories` that requests pages until one is short;
- the memcache key and what gets cached.

Everything outside these is a parameter:

- The database is a pure `seq<Source>`, and each operation returns the new table.
- The file system is a set of directory paths.
- The CodeQL engine is a function from (query path, database) to CSV rows or an error text.
- File retrieval is a function from (URI, database) to contents or an error text.
- The HTTP exchange is a sequence of page replies.
- The clock is an integer `now` in microseconds.
- The ISO-8601 parser is a function `string -> Option<int>`.

Modules, one per file:

| file | module | models |
|---|---|---|
| wrappers.dfy | `Wrappers` | `Option`, `Result` |
| strings.dfy | `Strings` | Python `isspace`, `strip`, `lstrip(c)`, `split(c)`, `join`, `str(n)` |
| source_records.dfy | `SourceRecords` | the `Source` row and its key |
| source_store.dfy | `SourceStore` | `store_new_source`, `get_sources`, the delete |
| result_decoder.dfy | `ResultDecoder` | `str.format` (positional subset) and `_csv_parse` |
| path_resolver.dfy | `PathResolver` | pathlib paths, `_resolve_db_path`, `_resolve_query_path` |
| file_uri.dfy | `FileUri` | the URI fix-up and `get_file_contents` |
| codeql_tools.dfy | `CodeqlTools` | `_run_query` and the four store tools |
| advisories.dfy | `Advisories` | `is_recent_advisory`, `filter_advisories` |
| advisory_fetch.dfy | `AdvisoryFetch` | the page loop, the cache key, `get_security_advisories` |

The table declares no uniqueness on (repo, source_location). The
at-most-one-record-per-key invariant (`SourceStore.Valid`) is therefore
proved about the operations, not assumed from the schema.

A new row's id is one more than the largest positive id in use, or 1 when
there is none. This is SQLite's rule for an `INTEGER PRIMARY KEY` on every
table the modelled operations can build, since they only ever assign
positive ids.

Two behaviours of the code are easy to misread:

- The comment in `remote_sources` (mcp_server.py:170) says each result is stored "as a source". The code calls `store_new_source` with `update=False`. A row whose location is already recorded is therefore merged, not added again. Its notes get `""` appended, so a NULL becomes `""`.
- In `get_file_contents`, the `except` (mcp_server.py:232-233) turns retrieval failures into an error string. The database path is resolved at mcp_server.py:225, outside the `try`, so a bad database path raises instead.

## Model

| member | source | states |
|---|---|---|
| SourceRecords.AppendNotes | src/seclab_taskflows/mcp_servers/codeql_python/mcp_server.py:91 | a NULL note column reads as the empty string; otherwise the new notes go after the old ones |
| SourceRecords.SchemaAdmitsDuplicateKeys | src/seclab_taskflows/mcp_servers/codeql_python/codeql_sqlite_models.py:12-19 | two rows at one (repo, location) with distinct ids satisfy the table's only constraint but break key uniqueness, so the schema alone does not give the invariant |
| SourceStore.FindAt | src/seclab_taskflows/mcp_servers/codeql_python/mcp_server.py:89 | the lookup finds the first row at the key in table order, or reports that no row has the key |
| SourceStore.Lookup | src/seclab_taskflows/mcp_servers/codeql_python/mcp_server.py:89 | a found record is in the table with the requested key; "none" means no row carries the key |
| SourceStore.NextId | src/seclab_taskflows/mcp_servers/codeql_python/codeql_sqlite_models.py:15 | a new primary key is positive and larger than every id in use |
| SourceStore.StoreNewSource | src/seclab_taskflows/mcp_servers/codeql_python/mcp_server.py:87-100 | existing record: notes appended, id and type kept, no row added, "Updated" outcome; no record and annotate-only: table unchanged, "No source exists" outcome; no record and record mode: exactly one row added with the given fields and a fresh id; no other key's record changes |
| SourceStore.MergeIgnoresFlagAndType | src/seclab_taskflows/mcp_servers/codeql_python/mcp_server.py:89-93 | when a record exists, the `update` flag and the `type` argument make no difference |
| SourceStore.StorePreservesValid | src/seclab_taskflows/mcp_servers/codeql_python/mcp_server.py:87-100 | either kind of call keeps ids distinct and keeps at most one record per (repo, location) |
| SourceStore.StoreKeepsOtherRepos | src/seclab_taskflows/mcp_servers/codeql_python/mcp_server.py:87-106 | a call never changes another repository's listing; a newly recorded source is listed last in its own repository |
| SourceStore.AnnotationsAccumulate | src/seclab_taskflows/mcp_servers/codeql_python/mcp_server.py:89-93 | N >= 1 annotations of an existing record leave its notes equal to the old notes (NULL as empty) followed by the N strings in call order, with nothing else changed |
| SourceStore.AnnotateMissingIsNoOp | src/seclab_taskflows/mcp_servers/codeql_python/mcp_server.py:95-96 | any number of annotations at an unrecorded location leave the table exactly as it was |
| SourceStore.RecordThenAnnotate | src/seclab_taskflows/mcp_servers/codeql_python/mcp_server.py:87-100 | recording a new location and then annotating it N >= 1 times leaves one record with the fresh id, the given type, and the first notes followed by every annotation |
| SourceStore.ReplayKeepsKeysDistinct | src/seclab_taskflows/mcp_servers/codeql_python/mcp_server.py:87-100 | any sequence of recording and annotating calls, from a valid table, keeps at most one record per (repo, location) |
| SourceStore.SourcesOf | src/seclab_taskflows/mcp_servers/codeql_python/mcp_server.py:102-106 | the listing holds exactly the rows of the repository, never more rows than the table |
| SourceStore.Without | src/seclab_taskflows/mcp_servers/codeql_python/mcp_server.py:214 | the delete keeps exactly the rows of other repositories |
| SourceStore.WithoutCount | src/seclab_taskflows/mcp_servers/codeql_python/mcp_server.py:214 | the kept rows plus the repository's rows account for the whole table |
| SourceStore.WithoutListing | src/seclab_taskflows/mcp_servers/codeql_python/mcp_server.py:214 | after the delete the repository lists nothing and every other repository lists the rows it had, in order |
| SourceStore.WithoutPreservesDistinct | src/seclab_taskflows/mcp_servers/codeql_python/mcp_server.py:214 | the delete keeps ids and keys distinct |
| SourceStore.Clear | src/seclab_taskflows/mcp_servers/codeql_python/mcp_server.py:213-217 | the count is the number of rows the repository had, its listing is empty afterwards, and exactly the other repositories' rows remain |
| SourceStore.ClearKeepsOtherRepos | src/seclab_taskflows/mcp_servers/codeql_python/mcp_server.py:213-216 | every other repository's listing is unchanged, in order |
| SourceStore.ClearPreservesValid | src/seclab_taskflows/mcp_servers/codeql_python/mcp_server.py:213-216 | deleting keeps ids and keys distinct |
| ResultDecoder.Format | src/seclab_taskflows/mcp_servers/codeql_python/mcp_server.py:119 | a placeholder index error names an index past the supplied values |
| ResultDecoder.FormatPlainText | src/seclab_taskflows/mcp_servers/codeql_python/mcp_server.py:119 | a template without braces formats to itself, whatever the values |
| ResultDecoder.FormatPlaceholder | src/seclab_taskflows/mcp_servers/codeql_python/mcp_server.py:119 | `{n}` formats to the n-th value, or fails with index n when there are n or fewer values |
| ResultDecoder.FormatIgnoresExtraValues | src/seclab_taskflows/mcp_servers/codeql_python/mcp_server.py:119 | appending values a template does not use does not change a successful result |
| ResultDecoder.FormatPlainPrefix | src/seclab_taskflows/mcp_servers/codeql_python/mcp_server.py:119 | a brace-free prefix is copied in front of whatever the rest of the template formats to, or the rest's error is the result |
| ResultDecoder.FormatPlaceholderPrefix | src/seclab_taskflows/mcp_servers/codeql_python/mcp_server.py:119 | a leading `{n}` puts the n-th value in front of the rest's result, or fails with index n when there are n or fewer values |
| ResultDecoder.FormatMixedExample | src/seclab_taskflows/mcp_servers/codeql_python/mcp_server.py:119 | `"at {0}!"` with the one value `x` formats to `at x!` |
| ResultDecoder.KeyNamesShape | src/seclab_taskflows/mcp_servers/codeql_python/mcp_server.py:118-121 | column 1 gives one key name more than it has commas; no name contains a comma or starts or ends with whitespace |
| ResultDecoder.KeyNamesOfJoin | src/seclab_taskflows/mcp_servers/codeql_python/mcp_server.py:118-121 | comma-joining trimmed, comma-free names and reading them back gives the same names, in order |
| ResultDecoder.AssignKeys | src/seclab_taskflows/mcp_servers/codeql_python/mcp_server.py:120-121 | the keys afterwards are the old keys plus every name |
| ResultDecoder.AssignKeysValues | src/seclab_taskflows/mcp_servers/codeql_python/mcp_server.py:120-121 | every name gets the value column at its position (the last one when a name repeats), and keys not named keep their values |
| ResultDecoder.DecodeRowSpec | src/seclab_taskflows/mcp_servers/codeql_python/mcp_server.py:114-122 | a row decodes iff it has at least two columns, its template formats, and it names no more keys than value columns, checked in that order: too few columns and too many key names give the list-index error, a bad template its format error; the map holds `description` plus the key names, and a key named `description` overwrites the filled template |
| ResultDecoder.FirstFailure | src/seclab_taskflows/mcp_servers/codeql_python/mcp_server.py:113-124 | combining row outcomes gives, on success, one map per row, each that row's own map |
| ResultDecoder.NoFailureSucceeds | src/seclab_taskflows/mcp_servers/codeql_python/mcp_server.py:113-122 | when no row fails, the combination succeeds |
| ResultDecoder.FirstFailureWins | src/seclab_taskflows/mcp_servers/codeql_python/mcp_server.py:113-124 | the combination reports exactly the error of the first failing row |
| ResultDecoder.DecodeRowsStopsAt | src/seclab_taskflows/mcp_servers/codeql_python/mcp_server.py:113-124 | when row k fails and every earlier row decodes, the rows' combination is row k's error |
| ResultDecoder.DecodeRows | src/seclab_taskflows/mcp_servers/codeql_python/mcp_server.py:114-122 | a successful decode has one map per data row, each that row's own decoding |
| ResultDecoder.Decode | src/seclab_taskflows/mcp_servers/codeql_python/mcp_server.py:110-125 | the result is either exactly one error message or all records; it is empty iff there is no data row |
| ResultDecoder.DecodeWellFormed | src/seclab_taskflows/mcp_servers/codeql_python/mcp_server.py:110-125 | on well-formed input, the header is skipped and there is one record per data row, in order |
| ResultDecoder.DecodeAllOrNothing | src/seclab_taskflows/mcp_servers/codeql_python/mcp_server.py:113-124 | if any data row fails, the whole result is the one error message for the first failing row, and earlier rows are discarded |
| ResultDecoder.DecodeIgnoresHeader | src/seclab_taskflows/mcp_servers/codeql_python/mcp_server.py:114-116 | the header row's contents never affect the result |
| Strings.Strip | src/seclab_taskflows/mcp_servers/codeql_python/mcp_server.py:66 | stripping leaves a string no longer than the input, with no whitespace at either end |
| Strings.StripIsMiddle | src/seclab_taskflows/mcp_servers/codeql_python/mcp_server.py:66 | the stripped string is a contiguous slice of the input with only whitespace before and after it |
| Strings.StripAddsNothing | src/seclab_taskflows/mcp_servers/codeql_python/mcp_server.py:66 | every character of the stripped string occurs in the input |
| Strings.StripIdempotent | src/seclab_taskflows/mcp_servers/security_advisories.py:86-87 | stripping twice is stripping once |
| Strings.TrimLeading | src/seclab_taskflows/mcp_servers/codeql_python/mcp_server.py:66 | `lstrip(c)` removes exactly the leading run of `c`: the result is a suffix of the input, everything removed is `c`, and the result does not start with `c` |
| Strings.DecimalText | src/seclab_taskflows/mcp_servers/codeql_python/mcp_server.py:182 | `str(n)` of a natural number is a non-empty string of decimal digits |
| Strings.Split | src/seclab_taskflows/mcp_servers/codeql_python/mcp_server.py:118 | splitting gives at least one piece, no piece contains the separator, and joining the pieces gives back the input |
| Strings.SplitJoin | src/seclab_taskflows/mcp_servers/codeql_python/mcp_server.py:118 | splitting a join of separator-free pieces gives back the pieces |
| Strings.SplitCount | src/seclab_taskflows/mcp_servers/codeql_python/mcp_server.py:118 | splitting gives one piece more than the number of separator occurrences |
| PathResolver.ParsePath | src/seclab_taskflows/mcp_servers/codeql_python/mcp_server.py:67 | `Path(s)` always gives a well-formed path: every component is non-empty, not `.`, and free of `/` |
| PathResolver.Normalize | src/seclab_taskflows/mcp_servers/codeql_python/mcp_server.py:67 | path parsing keeps exactly the pieces that are neither empty nor `.`, so `..` survives |
| PathResolver.NormalizeAppend | src/seclab_taskflows/mcp_servers/codeql_python/mcp_server.py:67 | normalizing a concatenation normalizes each part and concatenates, so order and repeats are kept |
| PathResolver.NormalizeOne | src/seclab_taskflows/mcp_servers/codeql_python/mcp_server.py:67 | a single piece is dropped iff it is empty or `.`, and otherwise kept as it is |
| PathResolver.JoinPathText | src/seclab_taskflows/mcp_servers/codeql_python/mcp_server.py:68 | joining with an absolute path gives that path's text; joining two non-empty paths with a relative right side gives the two texts separated by one `/` |
| PathResolver.ComponentsIgnoreLeadingSlashes | src/seclab_taskflows/mcp_servers/codeql_python/mcp_server.py:66 | removing leading slashes never changes a path's components |
| PathResolver.ParsePrintRoundTrip | src/seclab_taskflows/mcp_servers/codeql_python/mcp_server.py:67-72 | printing a well-formed path and parsing it back gives the same path |
| PathResolver.DbPathCandidate | src/seclab_taskflows/mcp_servers/codeql_python/mcp_server.py:66-68 | the checked path is absolute iff the base is, and consists of the base's components followed by the caller's |
| PathResolver.ResolveDbPath | src/seclab_taskflows/mcp_servers/codeql_python/mcp_server.py:62-72 | succeeds iff the candidate path is a directory, returning its text; otherwise the "Database not found" error naming it |
| PathResolver.ResolvedPathHasBasePrefix | src/seclab_taskflows/mcp_servers/codeql_python/mcp_server.py:62-72 | with an absolute base, a resolved path's text starts with the base's text, whatever the caller passed |
| PathResolver.LeadingSlashIgnored | src/seclab_taskflows/mcp_servers/codeql_python/mcp_server.py:66 | a caller path with no whitespace at either end resolves the same with or without a leading slash |
| PathResolver.DotDotIsNotCollapsed | src/seclab_taskflows/mcp_servers/codeql_python/mcp_server.py:66-68 | a `..` in the caller's path remains a component of the checked path, so the prefix property is textual only |
| PathResolver.ResolveQueryPath | src/seclab_taskflows/mcp_servers/codeql_python/mcp_server.py:52-59 | succeeds iff the language and a non-empty query entry exist; the two failures give their own error texts |
| PathResolver.OnlyPythonRemoteSources | src/seclab_taskflows/mcp_servers/codeql_python/mcp_server.py:35-40 | with the shipped table, exactly Python's `remote_sources` resolves |
| FileUri.CanonicalUri | src/seclab_taskflows/mcp_servers/codeql_python/mcp_server.py:228-231 | the result always starts with `file:///`; canonical input is unchanged; otherwise no extra slash follows the prefix |
| FileUri.CanonicalUriIdempotent | src/seclab_taskflows/mcp_servers/codeql_python/mcp_server.py:228-231 | fixing up twice is fixing up once |
| FileUri.SpellingsAgree | src/seclab_taskflows/mcp_servers/codeql_python/mcp_server.py:228-231 | `/p`, `file://p`, `file:///p` and bare `p` all become `file:///p` |
| FileUri.DoubledSchemeKept | src/seclab_taskflows/mcp_servers/codeql_python/mcp_server.py:228-231 | a doubled scheme is not collapsed |
| FileUri.GetFileContents | src/seclab_taskflows/mcp_servers/codeql_python/mcp_server.py:220-235 | the tool raises iff the database does not resolve; otherwise the retriever sees only a fixed-up URI, and its failure becomes an error text naming that URI |
| CodeqlTools.RunQuery | src/seclab_taskflows/mcp_servers/codeql_python/mcp_server.py:128-148 | a bad database path and an unsupported query each give their own message, checked in that order; once both resolve, an engine failure gives "The query Q encountered an error: E", and engine output gives exactly its decoding, which is all records or a single message |
| CodeqlTools.StoreEach | src/seclab_taskflows/mcp_servers/codeql_python/mcp_server.py:171-180 | afterwards every row's location is recorded, existing records change at most in their notes, keys outside the batch are untouched, and at most one row is added per input row |
| CodeqlTools.StoreEachRecord | src/seclab_taskflows/mcp_servers/codeql_python/mcp_server.py:171-180 | at a key of the batch, an existing record only gets `""` appended to its notes (NULL becomes `""`); a new record has empty notes and the `source` column of the first row at its location as its type |
| CodeqlTools.StoreEachPreservesValid | src/seclab_taskflows/mcp_servers/codeql_python/mcp_server.py:171-180 | the store loop keeps at most one record per (repo, location) |
| CodeqlTools.RecordsOf | src/seclab_taskflows/mcp_servers/codeql_python/mcp_server.py:172 | over an all-records list, the loop sees every field map, in order |
| CodeqlTools.RemoteSourcesAsWritten | src/seclab_taskflows/mcp_servers/codeql_python/mcp_server.py:158-182 | the tool as written changes the table only when the query layer returned a decoded list; a decoder message is reported in full; an all-records list is stored by the store loop under `owner/repo` and the reply is "Stored N remote sources in owner/repo." |
| CodeqlTools.RemoteSourcesTruncatesErrors | src/seclab_taskflows/mcp_servers/codeql_python/mcp_server.py:164-168 | as written, an unresolvable database path is reported as `Error: T` |
| CodeqlTools.StoreOutput | src/seclab_taskflows/mcp_servers/codeql_python/mcp_server.py:167-182 | an error from the query layer or the decoder is reported in full and leaves the table unchanged; otherwise the table is exactly what the store loop leaves (so StoreEach and StoreEachRecord apply: types from `source`, `""` notes, keys outside the batch untouched), every row's location is recorded and counted; other repositories are never touched |
| CodeqlTools.RemoteSources | src/seclab_taskflows/mcp_servers/codeql_python/mcp_server.py:158-182 | every error string from the query layer (bad database path, unsupported query, engine failure) and every decoder message is reported in full with the table unchanged; an all-records list is stored by the store loop under `owner/repo` with the reply "Stored N remote sources in owner/repo."; other repositories are never touched |
| CodeqlTools.RemoteSourcesAgree | src/seclab_taskflows/mcp_servers/codeql_python/mcp_server.py:167-182 | whenever the query layer returns a list, the tool as written and the corrected tool give the same table and reply, so the defect is confined to error strings |
| CodeqlTools.FetchSources | src/seclab_taskflows/mcp_servers/codeql_python/mcp_server.py:185-190 | returns exactly the records of `owner/repo` |
| CodeqlTools.AddSourceNotes | src/seclab_taskflows/mcp_servers/codeql_python/mcp_server.py:193-205 | never adds a record; a bad database path leaves everything unchanged; a missing record gives "No source exists at repo R, location L"; an existing one gets the notes appended, keeps id, type and key, and the reply is "Updated notes for source at L in R."; every other key is untouched |
| CodeqlTools.ClearCodeqlRepo | src/seclab_taskflows/mcp_servers/codeql_python/mcp_server.py:207-217 | afterwards `fetch_sources` for the repository is empty, the reply counts what was deleted, and other repositories keep their records |
| Advisories.ReplaceZ | src/seclab_taskflows/mcp_servers/security_advisories.py:46 | no `Z` is left after the rewrite |
| Advisories.AsAdvisory | src/seclab_taskflows/mcp_servers/security_advisories.py:66-71 | a projected record read back has no publication date, and projecting it again gives the same record |
| Advisories.UndatedIsRecent | src/seclab_taskflows/mcp_servers/security_advisories.py:41-43 | an advisory with a missing or empty `published_at` is recent |
| Advisories.UnparseableIsRecent | src/seclab_taskflows/mcp_servers/security_advisories.py:45-50 | an advisory whose non-empty `published_at` does not parse is recent |
| Advisories.RecentIffWithinWindow | src/seclab_taskflows/mcp_servers/security_advisories.py:45-48 | with a parseable date, an advisory is recent iff it is no earlier than `now` minus 365 × years days; the boundary is inclusive |
| Advisories.RecentMonotoneInYears | src/seclab_taskflows/mcp_servers/security_advisories.py:47-48 | a longer window never drops an advisory a shorter one keeps |
| Advisories.Filter | src/seclab_taskflows/mcp_servers/security_advisories.py:52-72 | the output is never longer than the input |
| Advisories.FilterBy | src/seclab_taskflows/mcp_servers/security_advisories.py:63-72 | filtering by any test never lengthens the list |
| Advisories.KeptBy | src/seclab_taskflows/mcp_servers/security_advisories.py:64-65 | the kept input positions stay in range and are as many as the output elements |
| Advisories.KeptIncreasing | src/seclab_taskflows/mcp_servers/security_advisories.py:64-65 | the kept input positions strictly increase, so the output keeps input order |
| Advisories.KeptProjects | src/seclab_taskflows/mcp_servers/security_advisories.py:64-71 | each output element is the projection of an accepted input at its kept position |
| Advisories.KeptComplete | src/seclab_taskflows/mcp_servers/security_advisories.py:64-65 | no accepted input is skipped |
| Advisories.FilterIsRecentSubsequence | src/seclab_taskflows/mcp_servers/security_advisories.py:63-72 | the output is exactly the recent inputs, projected, in input order |
| Advisories.FilterAdvisories | src/seclab_taskflows/mcp_servers/security_advisories.py:63-72 | the loop computes the same list, and the same kept positions, as the recursive definitions |
| Advisories.FilterAppend | src/seclab_taskflows/mcp_servers/security_advisories.py:63-72 | filtering a concatenation filters each part and concatenates the results |
| Advisories.FilterByIdempotent | src/seclab_taskflows/mcp_servers/security_advisories.py:63-72 | a second filter that accepts every projected record returns the first filter's output unchanged |
| Advisories.FilterIdempotent | src/seclab_taskflows/mcp_servers/security_advisories.py:41-72 | filtering a filtered list again, with any window, clock or parser, returns it unchanged |
| AdvisoryFetch.StopIndex | src/seclab_taskflows/mcp_servers/security_advisories.py:103-108 | the last page requested is the first one that is not full: every earlier page has at least 100 items |
| AdvisoryFetch.CollectStops | src/seclab_taskflows/mcp_servers/security_advisories.py:88-114 | the fetch is the items of the full pages before the stop page, in order, in front of that page's items or error |
| AdvisoryFetch.CollectSpec | src/seclab_taskflows/mcp_servers/security_advisories.py:88-114 | the fetch fails iff the last requested page failed, with that page's error text; otherwise it returns the concatenated items of all pages up to and including the last |
| AdvisoryFetch.FetchAllPages | src/seclab_taskflows/mcp_servers/security_advisories.py:88-114 | the loop agrees with the recursive definition; it requests pages 1, 2, ... while they are full, and a successful fetch ends on a page with fewer than 100 items |
| AdvisoryFetch.CacheKey | src/seclab_taskflows/mcp_servers/security_advisories.py:118 | the key carries the `security_advisories_` prefix |
| AdvisoryFetch.CacheKeySeparates | src/seclab_taskflows/mcp_servers/security_advisories.py:118 | for owners without a `/`, two calls share a cache key iff their stripped owners and stripped repos are equal |
| AdvisoryFetch.CacheKeyCollision | src/seclab_taskflows/mcp_servers/security_advisories.py:118 | a `/` moved between owner and repo gives the same key, so owners containing `/` can collide |
| AdvisoryFetch.CacheKeyIgnoresWhitespace | src/seclab_taskflows/mcp_servers/security_advisories.py:86-87 | surrounding whitespace in owner or repo never changes the key |
| AdvisoryFetch.GetSecurityAdvisories | src/seclab_taskflows/mcp_servers/security_advisories.py:109-126 | any failed page leaves the cache unchanged and returns that error; a complete fetch is filtered, cached under the key when the write succeeds, and returned; other cache entries never change |
| AdvisoryFetch.CachedEntryIsStable | src/seclab_taskflows/mcp_servers/security_advisories.py:115-120 | the cached list passes any later filter unchanged |

## Left out

- SQLAlchemy engines, sessions, and the choice between an in-memory and an on-disk database are not modelled. The table is a value.
- Two concurrent calls can both miss a key and both insert it. This read-then-write race is not modelled, because the model is sequential.
- JSON encoding of `fetch_sources` and `get_security_advisories` replies is not modelled. The models return the Python values.
- The CSV reader is not modelled. This covers `raw.strip().splitlines()` and quoting, and with it the `csv.Error` path. Rows arrive already split into columns.
- ResultDecoder.Format: covers only `{n}`, `{{` and `}}`. Python formats auto-numbered `{}`, conversions such as `{0!r}`, index and attribute fields such as `{0[0]}`, and format specs such as `{0:>5}` successfully; the model rejects them with an unsupported-field error.
- ResultDecoder.Format: a named field such as `{x}` makes Python raise `KeyError`. `_csv_parse` does not catch it, so `_run_query` answers "The query Q encountered an error: 'x'". The model instead gives the one-message CSV-parsing-error list.
- ResultDecoder.Format: Python's `ValueError` "Too many decimal digits in format string", for an index too large for a machine integer, is not modelled; the model reads any digit string as an unbounded index.
- Strings.AllDigits: field indices are read with ASCII digits only. The non-ASCII decimal digits Python accepts inside `{...}` are not covered.
- PathResolver.ParsePath: pathlib keeps a leading `//` as a distinct root. The model reads it as `/`.
- PathResolver.ResolveDbPath: the directory test is membership in a set of path texts. Symlinks and file-system `..` resolution are not modelled.
- `run_query`, `file_from_uri`, `list_source_files` and `search_in_src_archive` are not modelled. They are collaborators whose code is not part of this model. `_run_query` and `get_file_contents` take them as parameters.
- The region extraction inside `file_from_uri` is not modelled.
- `datetime.now`, `fromisoformat` and time zones are not modelled. `now` and the parse result are parameters, in one time scale.
- Advisories.IsRecent: an `OverflowError` from a huge `years` is not modelled, nor is an `AttributeError` from a non-string `published_at`.
- The HTTP client, token and headers, and the log lines are not modelled.
- AdvisoryFetch.FetchAllPages: the page replies are a finite sequence and any page past its end reads as an empty page, so the loop always ends. The source has no page cap and would keep requesting while the server keeps answering with full pages.
- AdvisoryFetch.GetSecurityAdvisories: a failed memcache write is the boolean `stored`. It is not an exception that the tool logs.

## Findings

| source | as written | input that shows it | evidently intended | confidence | as-written member | corrected member |
|---|---|---|---|---|---|---|
| src/seclab_taskflows/mcp_servers/codeql_python/mcp_server.py:167-168 | `remote_sources` reports `"Error: " + results[0]` whenever `results[0]` is a string. `_run_query` returns a plain string on a bad database path, an unsupported query or an engine failure, so `results[0]` is that string's first character. | any database path that does not resolve: `_run_query` returns "The database path for ... could not be resolved" and the tool answers `Error: T` | report the whole error string, and store nothing | not executed; high | CodeqlTools.RemoteSourcesTruncatesErrors | CodeqlTools.RemoteSources |

=== FILE: advisories.dfy ===
/** Advisory filtering of the security-advisories server
    (security_advisories.py): `is_recent_advisory` and `filter_advisories`.

    An advisory is the JSON object the API returns, as a map from field
    name to string; a field that is absent or JSON `null` is absent from the
    map (the code reads fields only through `.get`, which does not tell the
    two apart). Instants are integers in microseconds; `now` and the ISO-8601
    parser are parameters. */
module Advisories {
  import opened Wrappers

  type Advisory = map<string, string>

  const MicrosPerDay: int := 24 * 60 * 60 * 1000000

  /** The look-back window of `years` years, counted as 365-day years. */
  function Window(years: int): int {
    365 * years * MicrosPerDay
  }

  /** `published_at.replace('Z', '+00:00')`: every `Z` spelled as an offset. */
  function ReplaceZ(s: string): (r: string)
    ensures 'Z' !in r
    ensures |r| >= |s|
    decreases |s|
  {
    if |s| == 0 then []
    else (if s[0] == 'Z' then "+00:00" else [s[0]]) + ReplaceZ(s[1..])
  }

  /** `is_recent_advisory`: no (or an empty) publication date and an
      unparseable one both count as recent; otherwise the date must not be
      earlier than `now` minus the window. */
  predicate IsRecent(a: Advisory, years: int, now: int, parse: string -> Option<int>) {
    if "published_at" !in a || a["published_at"] == "" then true
    else
      match parse(ReplaceZ(a["published_at"]))
      case None => true
      case Some(t) => t >= now - Window(years)
  }

  /** The four fields `filter_advisories` keeps; each is `None` when the
      advisory lacks it. */
  datatype Projected = Projected(ghsaId: Option<string>, summary: Option<string>,
                                 description: Option<string>, severity: Option<string>)

  function Field(a: Advisory, name: string): (r: Option<string>)
    ensures r.Some? <==> name in a
    ensures r.Some? ==> r.value == a[name]
  {
    if name in a then Some(a[name]) else None
  }

  function Project(a: Advisory): Projected {
    Projected(Field(a, "ghsa_id"), Field(a, "summary"), Field(a, "description"), Field(a, "severity"))
  }

  /** A projected record read back as an advisory: its present fields. */
  function AsAdvisory(p: Projected): (a: Advisory)
    ensures "published_at" !in a
    ensures Project(a) == p
  {
    var a0: Advisory := map[];
    var a1 := if p.ghsaId.Some? then a0["ghsa_id" := p.ghsaId.value] else a0;
    var a2 := if p.summary.Some? then a1["summary" := p.summary.value] else a1;
    var a3 := if p.description.Some? then a2["description" := p.description.value] else a2;
    if p.severity.Some? then a3["severity" := p.severity.value] else a3
  }

  function AsAdvisories(ps: seq<Projected>): seq<Advisory> {
    seq(|ps|, i requires 0 <= i < |ps| => AsAdvisory(ps[i]))
  }

  /** The recency test with its window, clock and parser fixed. */
  function Recent(years: int, now: int, parse: string -> Option<int>): Advisory -> bool {
    a => IsRecent(a, years, now, parse)
  }

  /** The projections of the advisories `keep` accepts, in input order,
      defined over a growing prefix. */
  function FilterBy(advs: seq<Advisory>, keep: Advisory -> bool): (r: seq<Projected>)
    ensures |r| <= |advs|
    decreases |advs|
  {
    if |advs| == 0 then []
    else
      var last := advs[|advs| - 1];
      FilterBy(advs[..|advs| - 1], keep) + (if keep(last) then [Project(last)] else [])
  }

  /** `filter_advisories`: the projections of the recent advisories. */
  function Filter(advs: seq<Advisory>, years: int, now: int, parse: string -> Option<int>): (r: seq<Projected>)
    ensures |r| <= |advs|
  {
    FilterBy(advs, Recent(years, now, parse))
  }

  /** The input positions `FilterBy` keeps, in increasing order. */
  function KeptBy(advs: seq<Advisory>, keep: Advisory -> bool): (idx: seq<nat>)
    ensures |idx| == |FilterBy(advs, keep)|
    ensures forall k :: 0 <= k < |idx| ==> idx[k] < |advs|
    decreases |advs|
  {
    if |advs| == 0 then []
    else
      var n := |advs| - 1;
      KeptBy(advs[..n], keep) + (if keep(advs[n]) then [n] else [])
  }

  /** The kept positions strictly increase. */
  lemma {:induction false} KeptIncreasing(advs: seq<Advisory>, keep: Advisory -> bool)
    ensures forall k, l :: 0 <= k < l < |KeptBy(advs, keep)| ==> KeptBy(advs, keep)[k] < KeptBy(advs, keep)[l]
    decreases |advs|
  {
    if |advs| > 0 {
      var n := |advs| - 1;
      KeptIncreasing(advs[..n], keep);
      var prev := KeptBy(advs[..n], keep);
      var idx := KeptBy(advs, keep);
      assert idx == prev + (if keep(advs[n]) then [n] else []);
      forall k, l | 0 <= k < l < |idx|
        ensures idx[k] < idx[l]
      {
        assert k < |prev| && idx[k] == prev[k];
        if l < |prev| {
          assert idx[l] == prev[l] && prev[k] < prev[l];
        } else {
          assert idx[l] == n && prev[k] < |advs[..n]|;
        }
      }
    }
  }

  /** The input positions `filter_advisories` keeps. */
  function Kept(advs: seq<Advisory>, years: int, now: int, parse: string -> Option<int>): seq<nat> {
    KeptBy(advs, Recent(years, now, parse))
  }

  /** Each output element is the projection of an accepted input at its
      kept position. */
  lemma {:induction false} KeptProjects(advs: seq<Advisory>, keep: Advisory -> bool)
    ensures var idx := KeptBy(advs, keep);
            forall k :: 0 <= k < |idx| ==> keep(advs[idx[k]]) && FilterBy(advs, keep)[k] == Project(advs[idx[k]])
    decreases |advs|
  {
    if |advs| > 0 {
      var n := |advs| - 1;
      var init := advs[..n];
      KeptProjects(init, keep);
      var prev := KeptBy(init, keep);
      var idx := KeptBy(advs, keep);
      var out := FilterBy(advs, keep);
      assert idx == prev + (if keep(advs[n]) then [n] else []);
      assert out == FilterBy(init, keep) + (if keep(advs[n]) then [Project(advs[n])] else []);
      forall k | 0 <= k < |idx|
        ensures keep(advs[idx[k]]) && out[k] == Project(advs[idx[k]])
      {
        if k < |prev| {
          assert idx[k] == prev[k];
          assert advs[prev[k]] == init[prev[k]];
          assert out[k] == FilterBy(init, keep)[k];
        }
      }
    }
  }

  /** No accepted input is skipped. */
  lemma {:induction false} KeptComplete(advs: seq<Advisory>, keep: Advisory -> bool)
    ensures forall i :: 0 <= i < |advs| && keep(advs[i]) ==> i in KeptBy(advs, keep)
    decreases |advs|
  {
    if |advs| > 0 {
      var n := |advs| - 1;
      var init := advs[..n];
      KeptComplete(init, keep);
      var prev := KeptBy(init, keep);
      var idx := KeptBy(advs, keep);
      assert idx == prev + (if keep(advs[n]) then [n] else []);
      forall i | 0 <= i < |advs| && keep(advs[i])
        ensures i in idx
      {
        if i < n {
          assert advs[i] == init[i];
          assert i in prev;
        } else {
          assert idx[|idx| - 1] == n;
        }
      }
    }
  }

  /** The output of `filter_advisories` is exactly the recent inputs,
      projected, in input order: the kept positions strictly increase, each
      output element is the projection of the recent input there, and no
      recent input is skipped. */
  lemma FilterIsRecentSubsequence(advs: seq<Advisory>, years: int, now: int, parse: string -> Option<int>)
    ensures var idx := Kept(advs, years, now, parse);
            var out := Filter(advs, years, now, parse);
            && |idx| == |out|
            && (forall k :: 0 <= k < |idx| ==>
                  idx[k] < |advs| && IsRecent(advs[idx[k]], years, now, parse) && out[k] == Project(advs[idx[k]]))
            && (forall k, l :: 0 <= k < l < |idx| ==> idx[k] < idx[l])
            && (forall i :: 0 <= i < |advs| && IsRecent(advs[i], years, now, parse) ==> i in idx)
  {
    var keep := Recent(years, now, parse);
    var idx := Kept(advs, years, now, parse);
    var out := Filter(advs, years, now, parse);
    assert idx == KeptBy(advs, keep) && out == FilterBy(advs, keep);
    KeptIncreasing(advs, keep);
    KeptProjects(advs, keep);
    KeptComplete(advs, keep);
    assert |idx| == |out|;
    forall k | 0 <= k < |idx|
      ensures idx[k] < |advs| && IsRecent(advs[idx[k]], years, now, parse) && out[k] == Project(advs[idx[k]])
    {
      assert keep(advs[idx[k]]);
    }
    assert forall k, l :: 0 <= k < l < |idx| ==> idx[k] < idx[l];
    forall i | 0 <= i < |advs| && IsRecent(advs[i], years, now, parse)
      ensures i in idx
    {
      assert keep(advs[i]);
    }
  }

  /** `filter_advisories` as the code's loop. Besides the list it returns
      the input position of every element kept; both agree with the
      recursive definitions. */
  method FilterAdvisories(advs: seq<Advisory>, years: int, now: int, parse: string -> Option<int>)
    returns (r: seq<Projected>, kept: seq<nat>)
    ensures r == Filter(advs, years, now, parse)
    ensures kept == Kept(advs, years, now, parse)
  {
    var keep := Recent(years, now, parse);
    r := [];
    kept := [];
    var i := 0;
    while i < |advs|
      invariant 0 <= i <= |advs|
      invariant r == FilterBy(advs[..i], keep)
      invariant kept == KeptBy(advs[..i], keep)
    {
      assert advs[..i + 1][..i] == advs[..i];
      if IsRecent(advs[i], years, now, parse) {
        r := r + [Project(advs[i])];
        kept := kept + [i];
      }
      i := i + 1;
    }
    assert advs[..i] == advs;
  }

  /** Every advisory without a publication date passes. */
  lemma UndatedIsRecent(a: Advisory, years: int, now: int, parse: string -> Option<int>)
    requires "published_at" !in a || a["published_at"] == ""
    ensures IsRecent(a, years, now, parse)
  {
  }

  /** A date the parser rejects counts as recent, whatever the window and
      the clock. */
  lemma UnparseableIsRecent(a: Advisory, years: int, now: int, parse: string -> Option<int>)
    requires "published_at" in a && a["published_at"] != ""
    requires parse(ReplaceZ(a["published_at"])).None?
    ensures IsRecent(a, years, now, parse)
  {
  }

  /** With a parseable date, recency is exactly "no earlier than the
      cutoff": the boundary itself is recent, one microsecond before is not. */
  lemma RecentIffWithinWindow(a: Advisory, years: int, now: int, parse: string -> Option<int>)
    requires "published_at" in a && a["published_at"] != ""
    requires parse(ReplaceZ(a["published_at"])).Some?
    ensures IsRecent(a, years, now, parse)
            <==> parse(ReplaceZ(a["published_at"])).value >= now - Window(years)
  {
  }

  /** A longer window never drops an advisory a shorter one keeps. */
  lemma RecentMonotoneInYears(a: Advisory, years: int, more: int, now: int, parse: string -> Option<int>)
    requires years <= more
    requires IsRecent(a, years, now, parse)
    ensures IsRecent(a, more, now, parse)
  {
    assert Window(years) <= Window(more) by {
      assert Window(more) - Window(years) == 365 * (more - years) * MicrosPerDay;
    }
  }

  lemma {:induction false} FilterAppend(a: seq<Advisory>, b: seq<Advisory>, keep: Advisory -> bool)
    ensures FilterBy(a + b, keep) == FilterBy(a, keep) + FilterBy(b, keep)
    decreases |b|
  {
    if |b| == 0 {
      assert a + b == a;
    } else {
      var b' := b[..|b| - 1];
      var x := b[|b| - 1];
      var tail := if keep(x) then [Project(x)] else [];
      FilterAppend(a, b', keep);
      assert (a + b)[..|a + b| - 1] == a + b' && (a + b)[|a + b| - 1] == x;
      assert FilterBy(a + b, keep) == FilterBy(a + b', keep) + tail;
      assert FilterBy(b, keep) == FilterBy(b', keep) + tail;
    }
  }

  /** A filter that accepts every projected record returns a filtered list
      unchanged: projecting a projected record again is the identity. */
  lemma {:induction false} FilterByIdempotent(advs: seq<Advisory>, keep: Advisory -> bool, keep2: Advisory -> bool)
    requires forall p :: keep2(AsAdvisory(p))
    ensures FilterBy(AsAdvisories(FilterBy(advs, keep)), keep2) == FilterBy(advs, keep)
    decreases |advs|
  {
    if |advs| > 0 {
      var init := advs[..|advs| - 1];
      var last := advs[|advs| - 1];
      var prev := FilterBy(init, keep);
      var tail := if keep(last) then [Project(last)] else [];
      FilterByIdempotent(init, keep, keep2);
      assert FilterBy(advs, keep) == prev + tail;
      var t := AsAdvisories(tail);
      assert AsAdvisories(prev + tail) == AsAdvisories(prev) + t;
      FilterAppend(AsAdvisories(prev), t, keep2);
      if |tail| == 1 {
        assert t[..0] == [];
        assert keep2(t[0]);
        assert FilterBy(t, keep2) == [] + [Project(t[0])];
      } else {
        assert t == [];
      }
    }
  }

  /** Filtering once more (with any window, clock and parser) returns a
      filtered list unchanged: projected records have no publication date. */
  lemma FilterIdempotent(advs: seq<Advisory>, years: int, now: int, parse: string -> Option<int>,
                         years2: int, now2: int, parse2: string -> Option<int>)
    ensures var once := Filter(advs, years, now, parse);
            Filter(AsAdvisories(once), years2, now2, parse2) == once
  {
    var keep2 := Recent(years2, now2, parse2);
    forall p
      ensures keep2(AsAdvisory(p))
    {
      UndatedIsRecent(AsAdvisory(p), years2, now2, parse2);
    }
    FilterByIdempotent(advs, Recent(years, now, parse), keep2);
  }
}

=== FILE: advisory_fetch.dfy ===
/** The `get_security_advisories` tool (security_advisories.py): the loop
    that pages through the repository's advisories, the memcache key, and
    what is cached and returned.

    The HTTP exchange is a parameter: `pages[n]` is what request number
    n + 1 (`page=n+1`) produces, and every page past the end of `pages` is
    an empty list. The cache is a map from key to the stored value. */
module AdvisoryFetch {
  import opened Wrappers
  import opened Strings
  import opened Advisories

  /** The outcome of one page request. */
  datatype PageReply =
    | Page(items: seq<Advisory>)
    | HttpStatusError(status: int, body: string)
    | JsonDecodeError(message: string)
    | OtherError(message: string)

  /** `per_page=100`: a page shorter than this is the last one. */
  const PerPage: nat := 100

  function PageAt(pages: seq<PageReply>, n: nat): PageReply {
    if n < |pages| then pages[n] else Page([])
  }

  /** A page after which the loop asks for the next one. */
  predicate IsFull(p: PageReply) {
    p.Page? && |p.items| >= PerPage
  }

  /** The error text the tool returns for a failed request. */
  function ErrorText(p: PageReply): string
    requires !p.Page?
  {
    match p
    case HttpStatusError(status, body) => "HTTP error " + SignedText(status) + ": " + body
    case JsonDecodeError(m) => "JSON parsing error: " + m
    case OtherError(m) => "Error: " + m
  }

  function SignedText(n: int): string {
    if n < 0 then "-" + DecimalText(-n) else DecimalText(n)
  }

  /** The index of the first page from `k` on that is not full: the last
      page the loop requests. */
  function StopIndex(pages: seq<PageReply>, k: nat): (j: nat)
    requires k <= |pages|
    ensures k <= j <= |pages|
    ensures forall i :: k <= i < j ==> IsFull(pages[i])
    ensures j == |pages| || !IsFull(pages[j])
    decreases |pages| - k
  {
    if k == |pages| || !IsFull(pages[k]) then k else StopIndex(pages, k + 1)
  }

  /** The first non-full page is unique. */
  lemma StopIndexUnique(pages: seq<PageReply>, k: nat, j: nat)
    requires k <= j <= |pages|
    requires forall i :: k <= i < j ==> IsFull(pages[i])
    requires j == |pages| || !IsFull(pages[j])
    ensures StopIndex(pages, k) == j
  {
  }

  /** The items of a run of pages, concatenated in order. */
  function ItemsOf(ps: seq<PageReply>): seq<Advisory>
    decreases |ps|
  {
    if |ps| == 0 then []
    else (if ps[0].Page? then ps[0].items else []) + ItemsOf(ps[1..])
  }

  /** What the loop accumulates from page index `k` on: the items of every
      full page, then those of the first page that is not full, or the
      error of that page. */
  function Collect(pages: seq<PageReply>, k: nat): Result<seq<Advisory>, string>
    requires k <= |pages|
    decreases |pages| - k
  {
    if k == |pages| then Success([])
    else
      match pages[k]
      case Page(items) =>
        if |items| < PerPage then Success(items)
        else
          var rest := Collect(pages, k + 1);
          if rest.Success? then Success(items + rest.value) else rest
      case _ => Failure(ErrorText(pages[k]))
  }

  /** How the fetch ends at its stop page: that page's items, or its error. */
  function Final(p: PageReply): Result<seq<Advisory>, string> {
    if p.Page? then Success(p.items) else Failure(ErrorText(p))
  }

  function Prepend(acc: seq<Advisory>, r: Result<seq<Advisory>, string>): Result<seq<Advisory>, string> {
    if r.Success? then Success(acc + r.value) else r
  }

  /** The fetch from `k` is the items of the full pages before the stop
      page, in order, put in front of how the stop page ends it. */
  lemma {:induction false} CollectStops(pages: seq<PageReply>, k: nat)
    requires k <= |pages|
    ensures Collect(pages, k) == Prepend(ItemsOf(pages[k..StopIndex(pages, k)]), Final(PageAt(pages, StopIndex(pages, k))))
    decreases |pages| - k
  {
    var j := StopIndex(pages, k);
    if k < |pages| && IsFull(pages[k]) {
      CollectStops(pages, k + 1);
      assert j == StopIndex(pages, k + 1);
      var run := pages[k..j];
      assert run[0] == pages[k] && run[1..] == pages[k + 1..j];
      var before := ItemsOf(pages[k + 1..j]);
      assert ItemsOf(run) == pages[k].items + before;
      var fin := Final(PageAt(pages, j));
      if fin.Success? {
        assert pages[k].items + (before + fin.value) == (pages[k].items + before) + fin.value;
      }
    } else {
      assert j == k;
      assert pages[k..k] == [];
      if PageAt(pages, k).Page? {
        assert [] + PageAt(pages, k).items == PageAt(pages, k).items;
      }
    }
  }

  /** The fetch from `k` fails exactly when the page it stops at is an
      error, with that page's error text; otherwise it returns the items of
      the full pages before the stop, in order, followed by the stop page's. */
  lemma CollectSpec(pages: seq<PageReply>, k: nat)
    requires k <= |pages|
    ensures var j := StopIndex(pages, k);
            var r := Collect(pages, k);
            && (r.Failure? <==> !PageAt(pages, j).Page?)
            && (r.Failure? ==> r.error == ErrorText(PageAt(pages, j)))
            && (r.Success? ==> r.value == ItemsOf(pages[k..j]) + PageAt(pages, j).items)
  {
    CollectStops(pages, k);
  }

  /** One step of the loop: a full page contributes its items and the
      fetch goes on with the next page. */
  lemma CollectFullPage(pages: seq<PageReply>, k: nat, acc: seq<Advisory>)
    requires k < |pages| && IsFull(pages[k])
    ensures Prepend(acc, Collect(pages, k)) == Prepend(acc + pages[k].items, Collect(pages, k + 1))
  {
    var rest := Collect(pages, k + 1);
    if rest.Success? {
      assert acc + (pages[k].items + rest.value) == (acc + pages[k].items) + rest.value;
    }
  }

  /** The page loop of `get_security_advisories`. Request `page` goes out
      for page = 1, 2, ... while each page is full; the loop stops on an
      empty or short page (keeping its items) or on the first failure
      (keeping nothing). `requests` is the number of the last page asked for. */
  method FetchAllPages(pages: seq<PageReply>) returns (r: Result<seq<Advisory>, string>, requests: nat)
    ensures r == Collect(pages, 0)
    ensures requests == StopIndex(pages, 0) + 1
    ensures forall i :: 0 <= i < requests - 1 ==> IsFull(pages[i])
    ensures r.Success? ==> PageAt(pages, requests - 1).Page? && |PageAt(pages, requests - 1).items| < PerPage
  {
    var acc: seq<Advisory> := [];
    var page: nat := 1;
    assert Prepend(acc, Collect(pages, 0)) == Collect(pages, 0) by {
      if Collect(pages, 0).Success? {
        assert acc + Collect(pages, 0).value == Collect(pages, 0).value;
      }
    }
    while true
      invariant 1 <= page <= |pages| + 1
      invariant forall i :: 0 <= i < page - 1 ==> IsFull(pages[i])
      invariant Collect(pages, 0) == Prepend(acc, Collect(pages, page - 1))
      decreases |pages| + 1 - page
    {
      var reply := PageAt(pages, page - 1);
      if !IsFull(reply) {
        StopIndexUnique(pages, 0, page - 1);
        if !reply.Page? {
          return Failure(ErrorText(reply)), page;
        }
        if |reply.items| == 0 {
          assert acc + reply.items == acc;
          return Success(acc), page;
        }
        return Success(acc + reply.items), page;
      }
      CollectFullPage(pages, page - 1, acc);
      acc := acc + reply.items;
      page := page + 1;
    }
  }

  /** `f"security_advisories_{owner}/{repo}"` with both names stripped. */
  function CacheKey(owner: string, repo: string): (key: string)
    ensures StartsWith(key, "security_advisories_")
  {
    "security_advisories_" + Strip(owner) + "/" + Strip(repo)
  }

  /** Surrounding whitespace in the names never changes the key. */
  lemma CacheKeyIgnoresWhitespace(owner: string, repo: string)
    ensures CacheKey(Strip(owner), Strip(repo)) == CacheKey(owner, repo)
  {
    StripIdempotent(owner);
    StripIdempotent(repo);
  }

  /** One key per repository: for owners without a `/`, two calls share a
      key exactly when their stripped owners and stripped repos agree. */
  lemma CacheKeySeparates(o1: string, r1: string, o2: string, r2: string)
    requires '/' !in Strip(o1) && '/' !in Strip(o2)
    ensures CacheKey(o1, r1) == CacheKey(o2, r2) <==> Strip(o1) == Strip(o2) && Strip(r1) == Strip(r2)
  {
    SlashPairInjective("security_advisories_", Strip(o1), Strip(r1), Strip(o2), Strip(r2));
  }

  /** Without that restriction keys collide: a `/` may move between the
      owner and the repo, as with `("a/b", "c")` and `("a", "b/c")`. */
  lemma CacheKeyCollision(x: string, y: string, z: string)
    requires Trimmed(x) && Trimmed(y) && Trimmed(z)
    ensures CacheKey(x + "/" + y, z) == CacheKey(x, y + "/" + z)
  {
    var xy, yz := x + "/" + y, y + "/" + z;
    assert xy[0] == x[0] && xy[|xy| - 1] == y[|y| - 1];
    assert yz[0] == y[0] && yz[|yz| - 1] == z[|z| - 1];
    StripsToItself(xy);
    StripsToItself(yz);
    StripsToItself(x);
    StripsToItself(z);
    var prefix := "security_advisories_";
    assert prefix + xy + "/" + z == prefix + x + "/" + yz;
  }

  /** A non-empty name with no whitespace at either end. */
  predicate Trimmed(s: string) {
    |s| > 0 && !IsSpace(s[0]) && !IsSpace(s[|s| - 1])
  }

  lemma StripsToItself(s: string)
    requires Trimmed(s)
    ensures Strip(s) == s
  {
    LStripOfClean(s);
    RStripOfClean(s);
  }

  /** `p + a + "/" + b` determines `a` and `b` when `a` holds no `/`: the
      first `/` after `p` ends `a`. */
  lemma SlashPairInjective(p: string, a: string, b: string, c: string, d: string)
    requires '/' !in a && '/' !in c
    ensures p + a + "/" + b == p + c + "/" + d <==> a == c && b == d
  {
    if p + a + "/" + b == p + c + "/" + d {
      var u := a + "/" + b;
      var v := c + "/" + d;
      assert u == (p + a + "/" + b)[|p|..];
      assert v == (p + c + "/" + d)[|p|..];
      FirstSlashAt(a, b);
      FirstSlashAt(c, d);
      assert |a| == |c|;
      assert a == u[..|a|] && c == v[..|c|];
      assert b == u[|a| + 1..] && d == v[|c| + 1..];
    }
  }

  /** In `a + "/" + b` with `a` free of `/`, the first `/` is at `|a|`. */
  lemma FirstSlashAt(a: string, b: string)
    requires '/' !in a
    ensures (a + "/" + b)[|a|] == '/'
    ensures forall i :: 0 <= i < |a| ==> (a + "/" + b)[i] != '/'
  {
    forall i | 0 <= i < |a|
      ensures (a + "/" + b)[i] != '/'
    {
      assert (a + "/" + b)[i] == a[i];
    }
  }

  /** `get_security_advisories` before JSON encoding. Any failed page
      leaves the cache untouched and returns that page's error text; a
      complete fetch is filtered, stored under the key (when the memcache
      write succeeds, `stored`), and returned. A failed write is only
      logged. */
  function GetSecurityAdvisories(cache: map<string, seq<Projected>>, owner: string, repo: string, years: int,
                                 now: int, parse: string -> Option<int>, pages: seq<PageReply>, stored: bool)
    : (r: (map<string, seq<Projected>>, Result<seq<Projected>, string>))
    ensures Collect(pages, 0).Failure? ==> r == (cache, Failure(Collect(pages, 0).error))
    ensures Collect(pages, 0).Success? ==>
              && r.1 == Success(Filter(Collect(pages, 0).value, years, now, parse))
              && r.0 == (if stored then cache[CacheKey(owner, repo) := r.1.value] else cache)
    ensures forall key :: key in cache && key != CacheKey(owner, repo) ==> key in r.0 && r.0[key] == cache[key]
  {
    match Collect(pages, 0)
    case Failure(e) => (cache, Failure(e))
    case Success(advisories) =>
      var filtered := Filter(advisories, years, now, parse);
      (if stored then cache[CacheKey(owner, repo) := filtered] else cache, Success(filtered))
  }

  /** A cached entry is already filtered: filtering it again, with any
      window, clock and parser, changes nothing. */
  lemma CachedEntryIsStable(cache: map<string, seq<Projected>>, owner: string, repo: string, years: int,
                            now: int, parse: string -> Option<int>, pages: seq<PageReply>,
                            years2: int, now2: int, parse2: string -> Option<int>)
    requires Collect(pages, 0).Success?
    ensures var entry := GetSecurityAdvisories(cache, owner, repo, years, now, parse, pages, true).0[CacheKey(owner, repo)];
            Filter(AsAdvisories(entry), years2, now2, parse2) == entry
  {
    FilterIdempotent(Collect(pages, 0).value, years, now, parse, years2, now2, parse2);
  }
}

=== FILE: codeql_tools.dfy ===
/** The tools of the CodeQL-for-Python server that tie the pieces together
    (mcp_server.py): `_run_query`, `remote_sources`, `fetch_sources`,
    `add_source_notes` and `clear_codeql_repo`. The query engine is a
    parameter `run(queryPath, database)` returning the CSV rows or the text
    of the exception it raised. */
module CodeqlTools {
  import opened Wrappers
  import opened Strings
  import opened SourceRecords
  import opened SourceStore
  import opened ResultDecoder
  import PathResolver

  /** The process-wide settings: the database base directory, which paths
      under it are directories, and the templated query table. */
  datatype Config = Config(dbBase: string, dirs: set<string>, queries: map<string, map<string, string>>)

  /** The `repo` column value the tools use: `f"{owner}/{repo}"`. */
  function RepoKey(owner: string, repo: string): string {
    owner + "/" + repo
  }

  /** The message for a database path that does not resolve. */
  function UnresolvedDbText(dbPath: string): string {
    "The database path for " + dbPath + " could not be resolved"
  }

  /** What `_run_query` returns: the decoder's list, or an error string. */
  datatype QueryOutput = Entries(entries: seq<Entry>) | ErrorText(text: string)

  /** `_run_query`: resolve the database, then the query, run it, decode.
      Each failure is a distinct string, checked in that order; a decoded
      list is all records or one error message. */
  function RunQuery(cfg: Config, queryName: string, dbPath: string, language: string,
                    run: (PathResolver.Path, string) -> Result<seq<seq<string>>, string>): (r: QueryOutput)
    ensures PathResolver.ResolveDbPath(cfg.dbBase, cfg.dirs, dbPath).Failure? ==>
              r == ErrorText(UnresolvedDbText(dbPath))
    ensures PathResolver.ResolveDbPath(cfg.dbBase, cfg.dirs, dbPath).Success?
            && PathResolver.ResolveQueryPath(cfg.queries, language, queryName).Failure? ==>
              r == ErrorText("The query " + queryName + " is not supported for language: " + language)
    ensures var db := PathResolver.ResolveDbPath(cfg.dbBase, cfg.dirs, dbPath);
            var query := PathResolver.ResolveQueryPath(cfg.queries, language, queryName);
            db.Success? && query.Success? ==>
              && (run(query.value, db.value).Failure? ==>
                    r == ErrorText("The query " + queryName + " encountered an error: " + run(query.value, db.value).error))
              && (run(query.value, db.value).Success? ==> r == Entries(Decode(run(query.value, db.value).value)))
    ensures r.Entries? ==>
              && PathResolver.ResolveDbPath(cfg.dbBase, cfg.dirs, dbPath).Success?
              && PathResolver.ResolveQueryPath(cfg.queries, language, queryName).Success?
              && ((|r.entries| == 1 && r.entries[0].Message?)
                  || forall i :: 0 <= i < |r.entries| ==> r.entries[i].Record?)
  {
    match PathResolver.ResolveDbPath(cfg.dbBase, cfg.dirs, dbPath)
    case Failure(_) => ErrorText(UnresolvedDbText(dbPath))
    case Success(db) =>
      match PathResolver.ResolveQueryPath(cfg.queries, language, queryName)
      case Failure(_) => ErrorText("The query " + queryName + " is not supported for language: " + language)
      case Success(query) =>
        match run(query, db)
        case Failure(e) => ErrorText("The query " + queryName + " encountered an error: " + e)
        case Success(rows) => Entries(Decode(rows))
  }

  /** `result.get(k, default)`. */
  function Get(m: map<string, string>, k: string, default: string): string {
    if k in m then m[k] else default
  }

  function LocationOf(m: map<string, string>): string {
    Get(m, "location", "")
  }

  function SourceTypeOf(m: map<string, string>): string {
    Get(m, "source", "")
  }

  /** The keys a batch of decoded rows records under `repo`. */
  function BatchKeys(repo: string, rows: seq<map<string, string>>): (keys: set<Key>)
    ensures forall k :: k in keys ==> k.repo == repo
  {
    set i | 0 <= i < |rows| :: Key(repo, LocationOf(rows[i]))
  }

  /** The loop of `remote_sources`: each row recorded with empty notes.
      Afterwards every row's location has a record; records that already
      existed keep their id, type and location (only their notes may go
      from NULL to empty); keys outside the batch are untouched. */
  function StoreEach(s: Store, repo: string, rows: seq<map<string, string>>): (r: Store)
    ensures forall k :: k in BatchKeys(repo, rows) ==> Lookup(r, k).Some?
    ensures forall k :: k !in BatchKeys(repo, rows) ==> Lookup(r, k) == Lookup(s, k)
    ensures forall k :: Lookup(s, k).Some? ==>
              Lookup(r, k).Some? && Lookup(r, k).value.(notes := Lookup(s, k).value.notes) == Lookup(s, k).value
    ensures |r.rows| <= |s.rows| + |rows|
    decreases |rows|
  {
    if |rows| == 0 then s
    else
      var s1 := StoreNewSource(s, repo, LocationOf(rows[0]), SourceTypeOf(rows[0]), "", false).0;
      BatchKeysCons(repo, rows);
      StoreEach(s1, repo, rows[1..])
  }

  lemma BatchKeysCons(repo: string, rows: seq<map<string, string>>)
    requires |rows| > 0
    ensures BatchKeys(repo, rows) == {Key(repo, LocationOf(rows[0]))} + BatchKeys(repo, rows[1..])
  {
    forall k | k in BatchKeys(repo, rows)
      ensures k in {Key(repo, LocationOf(rows[0]))} + BatchKeys(repo, rows[1..])
    {
      var i :| 0 <= i < |rows| && k == Key(repo, LocationOf(rows[i]));
      if i > 0 {
        assert rows[1..][i - 1] == rows[i];
      }
    }
    forall k | k in BatchKeys(repo, rows[1..])
      ensures k in BatchKeys(repo, rows)
    {
      var i :| 0 <= i < |rows[1..]| && k == Key(repo, LocationOf(rows[1..][i]));
      assert rows[1..][i] == rows[i + 1];
    }
  }

  /** The `source` column of the first row at `location`: the row whose
      store call creates the record. */
  function FirstTypeAt(rows: seq<map<string, string>>, location: string): string
    decreases |rows|
  {
    if |rows| == 0 then ""
    else if LocationOf(rows[0]) == location then SourceTypeOf(rows[0])
    else FirstTypeAt(rows[1..], location)
  }

  /** What the loop leaves at a key of the batch. A record that existed
      keeps id, type and location, and its notes only go from NULL to
      empty. A new record has empty notes and the type of the first row at
      its location; later rows at that location only merge. */
  lemma {:induction false} StoreEachRecord(s: Store, repo: string, rows: seq<map<string, string>>, k: Key)
    requires k in BatchKeys(repo, rows)
    ensures Lookup(s, k).Some? ==>
              Lookup(StoreEach(s, repo, rows), k)
              == Some(Lookup(s, k).value.(notes := Some(AppendNotes(Lookup(s, k).value.notes, ""))))
    ensures Lookup(s, k).None? ==>
              && Lookup(StoreEach(s, repo, rows), k).Some?
              && Lookup(StoreEach(s, repo, rows), k).value.sourceType == FirstTypeAt(rows, k.location)
              && Lookup(StoreEach(s, repo, rows), k).value.notes == Some("")
    decreases |rows|
  {
    var key0 := Key(repo, LocationOf(rows[0]));
    var s1 := StoreNewSource(s, repo, LocationOf(rows[0]), SourceTypeOf(rows[0]), "", false).0;
    var rest := rows[1..];
    BatchKeysCons(repo, rows);
    assert StoreEach(s, repo, rows) == StoreEach(s1, repo, rest);
    if k == key0 {
      if k in BatchKeys(repo, rest) {
        StoreEachRecord(s1, repo, rest, k);
        var v := Lookup(s1, k).value;
        assert AppendNotes(v.notes, "") == v.notes.value;
      }
    } else {
      assert LocationOf(rows[0]) != k.location;
      StoreEachRecord(s1, repo, rest, k);
    }
  }

  lemma {:induction false} StoreEachPreservesValid(s: Store, repo: string, rows: seq<map<string, string>>)
    requires Valid(s)
    ensures Valid(StoreEach(s, repo, rows))
    decreases |rows|
  {
    if |rows| > 0 {
      StorePreservesValid(s, repo, LocationOf(rows[0]), SourceTypeOf(rows[0]), "", false);
      var s1 := StoreNewSource(s, repo, LocationOf(rows[0]), SourceTypeOf(rows[0]), "", false).0;
      StoreEachPreservesValid(s1, repo, rows[1..]);
    }
  }

  /** The field maps of the records in a decoded list. */
  function RecordsOf(entries: seq<Entry>): (rows: seq<map<string, string>>)
    ensures (forall i :: 0 <= i < |entries| ==> entries[i].Record?) ==>
              |rows| == |entries| && forall i :: 0 <= i < |entries| ==> rows[i] == entries[i].fields
    decreases |entries|
  {
    if |entries| == 0 then []
    else
      (match entries[0] case Record(m) => [m] case Message(_) => []) + RecordsOf(entries[1..])
  }

  function StoredMessage(count: nat, repo: string): string {
    "Stored " + DecimalText(count) + " remote sources in " + repo + "."
  }

  /** `remote_sources` exactly as written: `if results and
      isinstance(results[0], str)` also holds when `_run_query` returned an
      error STRING, and then `results[0]` is that string's first character. */
  function RemoteSourcesAsWritten(s: Store, cfg: Config, owner: string, repo: string, dbPath: string,
                                  language: string,
                                  run: (PathResolver.Path, string) -> Result<seq<seq<string>>, string>)
    : (r: (Store, string))
    ensures r.0 == s || RunQuery(cfg, "remote_sources", dbPath, language, run).Entries?
    ensures var out := RunQuery(cfg, "remote_sources", dbPath, language, run);
            out.Entries? && |out.entries| > 0 && out.entries[0].Message? ==>
              r == (s, "Error: " + out.entries[0].text)
    ensures var out := RunQuery(cfg, "remote_sources", dbPath, language, run);
            out.Entries? && (forall i :: 0 <= i < |out.entries| ==> out.entries[i].Record?) ==>
              r == (StoreEach(s, RepoKey(owner, repo), RecordsOf(out.entries)),
                    StoredMessage(|out.entries|, RepoKey(owner, repo)))
  {
    var key := RepoKey(owner, repo);
    match RunQuery(cfg, "remote_sources", dbPath, language, run)
    case ErrorText(t) =>
      if |t| > 0 then (s, "Error: " + [t[0]]) else (s, StoredMessage(0, key))
    case Entries(es) => StoreOutput(s, key, Entries(es))
  }

  /** The as-written tool loses the error: an unresolvable database path
      is reported as "Error: T", the first letter of "The database path ...". */
  lemma RemoteSourcesTruncatesErrors(s: Store, cfg: Config, owner: string, repo: string, dbPath: string,
                                     language: string,
                                     run: (PathResolver.Path, string) -> Result<seq<seq<string>>, string>)
    requires PathResolver.ResolveDbPath(cfg.dbBase, cfg.dirs, dbPath).Failure?
    ensures RemoteSourcesAsWritten(s, cfg, owner, repo, dbPath, language, run) == (s, "Error: T")
  {
    var t := UnresolvedDbText(dbPath);
    assert RunQuery(cfg, "remote_sources", dbPath, language, run) == ErrorText(t);
    assert |t| > 0 && [t[0]] == "T";
    assert "Error: " + [t[0]] == "Error: T";
  }

  /** The part of `remote_sources` after the query: report an error in
      full, or record every decoded row under `key` and count them. */
  function StoreOutput(s: Store, key: string, out: QueryOutput): (r: (Store, string))
    ensures out.ErrorText? ==> r == (s, "Error: " + out.text)
    ensures out.Entries? && |out.entries| > 0 && out.entries[0].Message? ==>
              r == (s, "Error: " + out.entries[0].text)
    ensures out.Entries? && (forall i :: 0 <= i < |out.entries| ==> out.entries[i].Record?) ==>
              && r.1 == StoredMessage(|out.entries|, key)
              && (forall i :: 0 <= i < |out.entries| ==> Lookup(r.0, Key(key, LocationOf(out.entries[i].fields))).Some?)
              && r.0 == StoreEach(s, key, RecordsOf(out.entries))
    ensures forall k: Key :: k.repo != key ==> Lookup(r.0, k) == Lookup(s, k)
  {
    match out
    case ErrorText(t) => (s, "Error: " + t)
    case Entries(es) =>
      if |es| > 0 && es[0].Message? then (s, "Error: " + es[0].text)
      else
        var rows := RecordsOf(es);
        assert forall i :: 0 <= i < |rows| ==> Key(key, LocationOf(rows[i])) in BatchKeys(key, rows);
        (StoreEach(s, key, rows), StoredMessage(|rows|, key))
  }

  /** `remote_sources` as intended: an error from the query layer or the
      decoder is reported in full and leaves the store alone; otherwise
      every decoded row is recorded under `owner/repo` and counted. No
      other repository is ever touched. */
  function RemoteSources(s: Store, cfg: Config, owner: string, repo: string, dbPath: string,
                         language: string,
                         run: (PathResolver.Path, string) -> Result<seq<seq<string>>, string>)
    : (r: (Store, string))
    ensures PathResolver.ResolveDbPath(cfg.dbBase, cfg.dirs, dbPath).Failure? ==>
              r == (s, "Error: " + UnresolvedDbText(dbPath))
    ensures var out := RunQuery(cfg, "remote_sources", dbPath, language, run);
            out.ErrorText? ==> r == (s, "Error: " + out.text)
    ensures var out := RunQuery(cfg, "remote_sources", dbPath, language, run);
            out.Entries? && |out.entries| > 0 && out.entries[0].Message? ==>
              r == (s, "Error: " + out.entries[0].text)
    ensures var out := RunQuery(cfg, "remote_sources", dbPath, language, run);
            out.Entries? && (forall i :: 0 <= i < |out.entries| ==> out.entries[i].Record?) ==>
              r == (StoreEach(s, RepoKey(owner, repo), RecordsOf(out.entries)),
                    StoredMessage(|out.entries|, RepoKey(owner, repo)))
    ensures r.0 != s ==> RunQuery(cfg, "remote_sources", dbPath, language, run).Entries?
    ensures forall k: Key :: k.repo != RepoKey(owner, repo) ==> Lookup(r.0, k) == Lookup(s, k)
  {
    StoreOutput(s, RepoKey(owner, repo), RunQuery(cfg, "remote_sources", dbPath, language, run))
  }

  /** The defect is confined to error strings: once the query layer
      returns a list, the tool as written and as intended agree. */
  lemma RemoteSourcesAgree(s: Store, cfg: Config, owner: string, repo: string, dbPath: string,
                           language: string,
                           run: (PathResolver.Path, string) -> Result<seq<seq<string>>, string>)
    ensures RunQuery(cfg, "remote_sources", dbPath, language, run).Entries? ==>
              RemoteSourcesAsWritten(s, cfg, owner, repo, dbPath, language, run)
              == RemoteSources(s, cfg, owner, repo, dbPath, language, run)
  {
  }

  /** `fetch_sources` (before JSON encoding): exactly the records of `owner/repo`. */
  function FetchSources(s: Store, owner: string, repo: string): (r: seq<Source>)
    ensures forall x :: x in r <==> x in s.rows && x.repo == RepoKey(owner, repo)
  {
    GetSources(s, RepoKey(owner, repo))
  }

  /** `add_source_notes`: once the database path resolves, an annotate-only
      store call. It never adds a record; it appends to one exactly when one
      exists, keeping its id, repository, location and type. */
  function AddSourceNotes(s: Store, cfg: Config, owner: string, repo: string, dbPath: string,
                          location: string, notes: string): (r: (Store, string))
    ensures |r.0.rows| == |s.rows|
    ensures PathResolver.ResolveDbPath(cfg.dbBase, cfg.dirs, dbPath).Failure? ==>
              r == (s, UnresolvedDbText(dbPath))
    ensures PathResolver.ResolveDbPath(cfg.dbBase, cfg.dirs, dbPath).Success? ==>
              var key := Key(RepoKey(owner, repo), location);
              && (Lookup(s, key).None? ==>
                    r == (s, "No source exists at repo " + RepoKey(owner, repo) + ", location " + location))
              && (Lookup(s, key).Some? ==>
                    && r.1 == "Updated notes for source at " + location + " in " + RepoKey(owner, repo) + "."
                    && Lookup(r.0, key)
                       == Some(Lookup(s, key).value.(notes := Some(AppendNotes(Lookup(s, key).value.notes, notes)))))
    ensures forall k :: k != Key(RepoKey(owner, repo), location) ==> Lookup(r.0, k) == Lookup(s, k)
  {
    match PathResolver.ResolveDbPath(cfg.dbBase, cfg.dirs, dbPath)
    case Failure(_) => (s, UnresolvedDbText(dbPath))
    case Success(_) =>
      var key := RepoKey(owner, repo);
      var (s', outcome) := StoreNewSource(s, key, location, "", notes, true);
      (s', OutcomeMessage(outcome, key, location))
  }

  /** `clear_codeql_repo`: afterwards `fetch_sources` for the repository is
      empty, the reply counts what was there, and other repositories keep
      their records. */
  function ClearCodeqlRepo(s: Store, owner: string, repo: string): (r: (Store, string))
    ensures FetchSources(r.0, owner, repo) == []
    ensures r.1 == "Cleared " + DecimalText(|FetchSources(s, owner, repo)|) + " sources from repo "
                   + RepoKey(owner, repo) + "."
    ensures forall other :: other != RepoKey(owner, repo) ==> GetSources(r.0, other) == GetSources(s, other)
  {
    var key := RepoKey(owner, repo);
    var (s', count) := Clear(s, key);
    assert forall other :: other != key ==> GetSources(s', other) == GetSources(s, other) by {
      forall other | other != key
        ensures GetSources(s', other) == GetSources(s, other)
      {
        ClearKeepsOtherRepos(s, key, other);
      }
    }
    (s', "Cleared " + DecimalText(count) + " sources from repo " + key + ".")
  }
}

=== FILE: file_uri.dfy ===
/** `get_file_contents` of the CodeQL-for-Python server (mcp_server.py):
    the fix-up that turns a caller's file URI into the `file:///path` form,
    and the tool around it. Reading the file (and cutting out a
    `:startLine:startCol:endLine:endCol` region) is done by a collaborator,
    passed in as `fetch(uri, database)`. */
module FileUri {
  import opened Wrappers
  import opened Strings
  import PathResolver

  const CanonicalPrefix := "file:///"
  const SchemePrefix := "file://"

  /** The URI fix-up: a URI already starting with `file:///` is kept; else a
      `file://` prefix is dropped, leading slashes are dropped, and
      `file:///` is put in front. */
  function CanonicalUri(uri: string): (r: string)
    ensures StartsWith(r, CanonicalPrefix)
    ensures StartsWith(uri, CanonicalPrefix) ==> r == uri
    ensures !StartsWith(uri, CanonicalPrefix) ==> |r| == |CanonicalPrefix| || r[|CanonicalPrefix|] != '/'
  {
    if StartsWith(uri, CanonicalPrefix) then uri
    else
      var rest := if StartsWith(uri, SchemePrefix) then uri[|SchemePrefix|..] else uri;
      CanonicalPrefix + TrimLeading(rest, '/')
  }

  /** The fix-up is idempotent. */
  lemma CanonicalUriIdempotent(uri: string)
    ensures CanonicalUri(CanonicalUri(uri)) == CanonicalUri(uri)
  {
  }

  /** `/path`, `file://path`, `file:///path` and (when it does not itself
      begin with the scheme) bare `path` all become `file:///path`; so
      `/a/b:1:2:3:4` and `file://a/b:1:2:3:4` both give `file:///a/b:1:2:3:4`. */
  lemma SpellingsAgree(path: string)
    requires path == [] || path[0] != '/'
    ensures CanonicalUri("/" + path) == CanonicalPrefix + path
    ensures CanonicalUri(SchemePrefix + path) == CanonicalPrefix + path
    ensures CanonicalUri(CanonicalPrefix + path) == CanonicalPrefix + path
    ensures !StartsWith(path, SchemePrefix) ==> CanonicalUri(path) == CanonicalPrefix + path
  {
    var slashed := "/" + path;
    assert !StartsWith(slashed, SchemePrefix) by { assert slashed[0] == '/'; }
    assert slashed[1..] == path;
    var schemed := SchemePrefix + path;
    assert schemed[..|SchemePrefix|] == SchemePrefix;
    assert schemed[|SchemePrefix|..] == path;
    if |path| > 0 {
      assert schemed[|SchemePrefix|] == path[0];
    }
    var canonical := CanonicalPrefix + path;
    assert canonical[..|CanonicalPrefix|] == CanonicalPrefix;
  }

  /** A doubled scheme is not collapsed: `file://file:///p` becomes
      `file:///file:///p`. */
  lemma DoubledSchemeKept(path: string)
    ensures CanonicalUri(SchemePrefix + CanonicalPrefix + path) == CanonicalPrefix + CanonicalPrefix + path
  {
    var rest := CanonicalPrefix + path;
    var u := SchemePrefix + rest;
    assert u[..|SchemePrefix|] == SchemePrefix;
    assert u[|SchemePrefix|..] == rest;
    assert !StartsWith(u, CanonicalPrefix) by {
      assert u[|SchemePrefix|] == rest[0] == 'f';
    }
    assert TrimLeading(rest, '/') == rest by {
      assert rest[0] == 'f';
    }
    assert SchemePrefix + CanonicalPrefix + path == u;
  }

  /** What a tool returns: a text, or an exception that escapes the tool. */
  datatype Reply = Text(text: string) | Raised(error: string)

  /** `get_file_contents`. The database is resolved first and outside the
      error handler, so a bad database path escapes as an exception; after
      that every failure of the collaborator becomes an error text naming
      the fixed-up URI, and the collaborator only ever sees a fixed-up URI. */
  function GetFileContents(baseDir: string, dirs: set<string>, uri: string, dbPath: string,
                           fetch: (string, string) -> Result<string, string>): (r: Reply)
    ensures r.Raised? <==> PathResolver.ResolveDbPath(baseDir, dirs, dbPath).Failure?
    ensures r.Raised? ==> r.error == PathResolver.ResolveDbPath(baseDir, dirs, dbPath).error
    ensures r.Text? ==>
              var db := PathResolver.ResolveDbPath(baseDir, dirs, dbPath).value;
              var u := CanonicalUri(uri);
              && StartsWith(u, CanonicalPrefix)
              && (fetch(u, db).Success? ==> r.text == fetch(u, db).value)
              && (fetch(u, db).Failure? ==> r.text == "Error: could not retrieve " + u + ": " + fetch(u, db).error)
  {
    match PathResolver.ResolveDbPath(baseDir, dirs, dbPath)
    case Failure(e) => Raised(e)
    case Success(db) =>
      var u := CanonicalUri(uri);
      match fetch(u, db)
      case Success(contents) => Text(contents)
      case Failure(e) => Text("Error: could not retrieve " + u + ": " + e)
  }
}

=== FILE: path_resolver.dfy ===
/** Path handling of the CodeQL-for-Python server (mcp_server.py):
    `_resolve_db_path`, which maps a caller's database path onto the
    configured base directory, and `_resolve_query_path`, the
    language -> query -> file table lookup.

    Paths follow Python's `pathlib.PurePosixPath`: a path is absolute or
    not, plus a list of components; parsing splits on `/` and drops empty
    and `.` components, and keeps `..` as an ordinary component. Which paths
    are directories is the set `dirs` of their texts. */
module PathResolver {
  import opened Wrappers
  import opened Strings

  datatype Path = Path(absolute: bool, parts: seq<string>)

  /** What pathlib keeps as a component. */
  predicate IsComponent(c: string) {
    c != "" && c != "." && '/' !in c
  }

  predicate WellFormed(p: Path) {
    forall i :: 0 <= i < |p.parts| ==> IsComponent(p.parts[i])
  }

  /** The pieces of a `/`-split path that pathlib keeps, in order. */
  function Normalize(pieces: seq<string>): (r: seq<string>)
    ensures forall i :: 0 <= i < |r| ==> r[i] in pieces && r[i] != "" && r[i] != "."
    ensures forall x :: x in pieces && x != "" && x != "." ==> x in r
    decreases |pieces|
  {
    if |pieces| == 0 then []
    else (if pieces[0] == "" || pieces[0] == "." then [] else [pieces[0]]) + Normalize(pieces[1..])
  }

  /** Normalizing works piece by piece: a concatenation normalizes to the
      concatenation of the normalized parts, so order and repeats are kept. */
  lemma {:induction false} NormalizeAppend(a: seq<string>, b: seq<string>)
    ensures Normalize(a + b) == Normalize(a) + Normalize(b)
    decreases |a|
  {
    if |a| == 0 {
      assert a + b == b;
    } else {
      assert (a + b)[0] == a[0] && (a + b)[1..] == a[1..] + b;
      NormalizeAppend(a[1..], b);
    }
  }

  /** A single piece is dropped exactly when it is empty or `.`. */
  lemma NormalizeOne(x: string)
    ensures Normalize([x]) == if x == "" || x == "." then [] else [x]
  {
    assert [x][1..] == [];
  }

  lemma {:induction false} NormalizeKeepsComponents(cs: seq<string>)
    requires forall i :: 0 <= i < |cs| ==> IsComponent(cs[i])
    ensures Normalize(cs) == cs
    decreases |cs|
  {
    if |cs| > 0 {
      NormalizeKeepsComponents(cs[1..]);
      assert cs == [cs[0]] + cs[1..];
    }
  }

  function Components(s: string): (cs: seq<string>)
    ensures forall i :: 0 <= i < |cs| ==> IsComponent(cs[i])
  {
    var pieces := Split(s, '/');
    var cs := Normalize(pieces);
    assert forall i :: 0 <= i < |cs| ==> cs[i] in pieces;
    cs
  }

  /** `Path(s)`. */
  function ParsePath(s: string): (p: Path)
    ensures WellFormed(p)
  {
    Path(StartsWith(s, "/"), Components(s))
  }

  /** `str(p)`. */
  function PathText(p: Path): string {
    if p.absolute then "/" + Join(p.parts, '/')
    else if |p.parts| == 0 then "."
    else Join(p.parts, '/')
  }

  /** `a / b`: an absolute right-hand side replaces the left one. */
  function JoinPath(a: Path, b: Path): Path {
    if b.absolute then b else Path(a.absolute, a.parts + b.parts)
  }

  /** The text of `a / b`: that of `b` when `b` is absolute; otherwise, when
      both sides have components, the two texts with one `/` between. */
  lemma JoinPathText(a: Path, b: Path)
    ensures b.absolute ==> PathText(JoinPath(a, b)) == PathText(b)
    ensures !b.absolute && |a.parts| > 0 && |b.parts| > 0 ==>
              PathText(JoinPath(a, b)) == PathText(a) + "/" + PathText(b)
  {
    if !b.absolute && |a.parts| > 0 && |b.parts| > 0 {
      JoinAppend(a.parts, b.parts, '/');
      if a.absolute {
        assert "/" + (Join(a.parts, '/') + ['/'] + Join(b.parts, '/'))
               == ("/" + Join(a.parts, '/')) + "/" + Join(b.parts, '/');
      }
    }
  }

  /** Leading slashes never change the components. */
  lemma {:induction false} ComponentsIgnoreLeadingSlashes(s: string)
    ensures Components(TrimLeading(s, '/')) == Components(s)
    decreases |s|
  {
    if |s| > 0 && s[0] == '/' {
      ComponentsIgnoreLeadingSlashes(s[1..]);
      assert Split(s, '/') == [""] + Split(s[1..], '/');
    }
  }

  /** Printing a well-formed path and parsing it back gives the same path. */
  lemma ParsePrintRoundTrip(p: Path)
    requires WellFormed(p)
    ensures ParsePath(PathText(p)) == p
  {
    if |p.parts| == 0 {
      EmptyPathRoundTrip(p.absolute);
    } else {
      var joined := Join(p.parts, '/');
      ComponentsOfJoin(p.parts);
      JoinStartsWithFirst(p.parts, '/');
      if p.absolute {
        TrimOneSlash(joined);
        ComponentsIgnoreLeadingSlashes("/" + joined);
        assert StartsWith("/" + joined, "/");
      } else {
        assert !StartsWith(joined, "/");
      }
    }
  }

  /** The two paths without components print as `/` and `.`. */
  lemma EmptyPathRoundTrip(absolute: bool)
    ensures ParsePath(PathText(Path(absolute, []))) == Path(absolute, [])
  {
    assert Split("", '/') == [""];
    if absolute {
      assert Split("/", '/') == [""] + Split("", '/');
    } else {
      assert Split(".", '/') == [[ '.' ] + ""] + Split("", '/')[1..];
    }
  }

  /** Joining components and splitting the text again gives the components. */
  lemma ComponentsOfJoin(parts: seq<string>)
    requires |parts| >= 1
    requires forall i :: 0 <= i < |parts| ==> IsComponent(parts[i])
    ensures Components(Join(parts, '/')) == parts
  {
    SplitJoin(parts, '/');
    NormalizeKeepsComponents(parts);
  }

  lemma TrimOneSlash(t: string)
    requires |t| >= 1 && t[0] != '/'
    ensures TrimLeading("/" + t, '/') == t
  {
    assert ("/" + t)[1..] == t;
  }

  lemma JoinStartsWithFirst(parts: seq<string>, sep: char)
    requires |parts| >= 1 && |parts[0]| >= 1
    ensures |Join(parts, sep)| >= 1 && Join(parts, sep)[0] == parts[0][0]
  {
  }

  /** The caller's path as `_resolve_db_path` cleans it: surrounding
      whitespace stripped, then every leading `/`. */
  function CleanRelative(rel: string): string {
    TrimLeading(Strip(rel), '/')
  }

  /** The path `_resolve_db_path` checks: the base directory's components
      followed by the caller's components. Stripping leading slashes is what
      keeps the join from replacing the base; `..` is not collapsed. */
  function DbPathCandidate(baseDir: string, rel: string): (p: Path)
    ensures p.absolute == StartsWith(baseDir, "/")
    ensures p.parts == Components(baseDir) + Components(Strip(rel))
  {
    var stripped := Strip(rel);
    var cleaned := TrimLeading(stripped, '/');
    ComponentsIgnoreLeadingSlashes(stripped);
    assert !StartsWith(cleaned, "/") by {
      assert cleaned == [] || cleaned[0] != '/';
    }
    var right := ParsePath(cleaned);
    assert right == Path(false, Components(stripped));
    JoinPath(ParsePath(baseDir), right)
  }

  /** `_resolve_db_path`: the candidate's text if it is a directory, else
      the "Database not found" error naming it. */
  function ResolveDbPath(baseDir: string, dirs: set<string>, rel: string): (r: Result<string, string>)
    ensures r.Success? <==> PathText(DbPathCandidate(baseDir, rel)) in dirs
    ensures r.Success? ==> r.value == PathText(DbPathCandidate(baseDir, rel)) && r.value in dirs
    ensures r.Failure? ==> r.error == "Error: Database not found at " + PathText(DbPathCandidate(baseDir, rel)) + "!"
  {
    var text := PathText(JoinPath(ParsePath(baseDir), ParsePath(CleanRelative(rel))));
    if text in dirs then Success(text) else Failure("Error: Database not found at " + text + "!")
  }

  /** With an absolute base directory, whatever the caller passes, a
      resolved path starts with the base directory's text. This is a
      textual property only: a `..` component can still name a directory
      outside the base. */
  lemma ResolvedPathHasBasePrefix(baseDir: string, dirs: set<string>, rel: string)
    requires StartsWith(baseDir, "/")
    ensures ResolveDbPath(baseDir, dirs, rel).Success? ==>
              StartsWith(ResolveDbPath(baseDir, dirs, rel).value, PathText(ParsePath(baseDir)))
  {
    var p := DbPathCandidate(baseDir, rel);
    AbsolutePrefix(Components(baseDir), Components(Strip(rel)));
    assert p == Path(true, Components(baseDir) + Components(Strip(rel)));
  }

  /** The text of an absolute path starts with the text of any of its
      leading component lists. */
  lemma AbsolutePrefix(b: seq<string>, c: seq<string>)
    ensures StartsWith(PathText(Path(true, b + c)), PathText(Path(true, b)))
  {
    var text := PathText(Path(true, b + c));
    var prefix := PathText(Path(true, b));
    if |b| == 0 {
      assert text[..1] == "/";
    } else if |c| == 0 {
      assert b + c == b;
    } else {
      JoinAppend(b, c, '/');
      var rest := ['/'] + Join(c, '/');
      assert text == prefix + rest;
      assert text[..|prefix|] == prefix;
    }
  }

  /** A caller path that is already trimmed resolves the same with or
      without one more leading slash. */
  lemma LeadingSlashIgnored(baseDir: string, dirs: set<string>, rel: string)
    requires rel == [] || (!IsSpace(rel[0]) && !IsSpace(rel[|rel| - 1]))
    ensures ResolveDbPath(baseDir, dirs, "/" + rel) == ResolveDbPath(baseDir, dirs, rel)
  {
    assert Strip(rel) == rel by {
      LStripOfClean(rel);
      RStripOfClean(rel);
    }
    StrippedLeadingSlashIgnored(baseDir, dirs, rel);
  }

  /** The same, for any caller path that stripping leaves unchanged. */
  lemma StrippedLeadingSlashIgnored(baseDir: string, dirs: set<string>, rel: string)
    ensures Strip(rel) == rel ==> ResolveDbPath(baseDir, dirs, "/" + rel) == ResolveDbPath(baseDir, dirs, rel)
  {
    if Strip(rel) == rel {
      var s := "/" + rel;
      LStripOfClean(s);
      RStripOfClean(s);
      assert Strip(s) == s;
      assert s[1..] == rel;
      ComponentsIgnoreLeadingSlashes(s);
      ComponentsIgnoreLeadingSlashes(rel);
      assert TrimLeading(s, '/') == TrimLeading(rel, '/');
    }
  }

  /** `..` survives resolution: every `..` piece of the caller's path is a
      component of the checked path, so with base `/data` the caller path
      `../etc` is checked as `/data/../etc`, which a file system reads as
      `/etc`. Only the textual prefix of `ResolvedPathHasBasePrefix` holds. */
  lemma DotDotIsNotCollapsed(baseDir: string, rel: string)
    requires ".." in Split(Strip(rel), '/')
    ensures ".." in DbPathCandidate(baseDir, rel).parts[|Components(baseDir)|..]
  {
    var p := DbPathCandidate(baseDir, rel);
    assert p.parts[|Components(baseDir)|..] == Components(Strip(rel));
  }

  /** `TEMPLATED_QUERY_PATHS`: the templated queries per language. */
  const TemplatedQueries: map<string, map<string, string>> :=
    map["python" := map["remote_sources" := "queries/mcp-python/remote_sources.ql"]]

  /** `_resolve_query_path`: an unknown language and an unknown (or empty)
      query entry are distinct errors; otherwise the entry as a path. */
  function ResolveQueryPath(table: map<string, map<string, string>>, language: string, query: string)
    : (r: Result<Path, string>)
    ensures r.Success? <==> language in table && query in table[language] && table[language][query] != ""
    ensures r.Success? ==> r.value == ParsePath(table[language][query])
    ensures language !in table ==> r == Failure("Error: Language `" + language + "` not supported!")
    ensures language in table && !r.Success? ==>
              r == Failure("Error: query `" + query + "` not supported for `" + language + "`!")
  {
    if language !in table then Failure("Error: Language `" + language + "` not supported!")
    else if query !in table[language] || table[language][query] == "" then
      Failure("Error: query `" + query + "` not supported for `" + language + "`!")
    else Success(ParsePath(table[language][query]))
  }

  /** With the shipped table, only Python's `remote_sources` resolves. */
  lemma OnlyPythonRemoteSources(language: string, query: string)
    ensures ResolveQueryPath(TemplatedQueries, language, query).Success?
            <==> language == "python" && query == "remote_sources"
  {
  }
}

=== FILE: result_decoder.dfy ===
/** `_csv_parse` of the CodeQL-for-Python server (mcp_server.py): templated
    query output, already split into rows and columns, becomes one field map
    per data row, or a single error message if any row is malformed.

    A row is `[template, "key0,key1,...", value0, value1, ...]`. The template
    is filled by Python's `str.format(*values)`; the model covers the
    positional subset of that language: `{n}` for a decimal `n`, and the
    escapes `{{` and `}}`. */
module ResultDecoder {
  import opened Wrappers
  import opened Strings

  datatype FormatError =
    | ReplacementIndex(index: nat)      // `{n}` with n past the values (IndexError)
    | SingleOpenBrace                   // a `{` that ends the template (ValueError)
    | SingleCloseBrace                  // a `}` not doubled (ValueError)
    | UnclosedField                     // `{` with no `}` after it (ValueError)
    | UnsupportedField(field: string)   // braces holding anything but digits

  /** The index of the first `}` in `t` at or after `from`. */
  function CloseAt(t: string, from: nat): (r: Option<nat>)
    requires from <= |t|
    ensures r.Some? ==> from <= r.value < |t| && t[r.value] == '}'
                        && forall i :: from <= i < r.value ==> t[i] != '}'
    ensures r.None? ==> forall i :: from <= i < |t| ==> t[i] != '}'
    decreases |t| - from
  {
    if from == |t| then None
    else if t[from] == '}' then Some(from)
    else CloseAt(t, from + 1)
  }

  function PrependTo(prefix: string, r: Result<string, FormatError>): Result<string, FormatError> {
    match r
    case Success(s) => Success(prefix + s)
    case Failure(e) => Failure(e)
  }

  /** `template.format(*args)`, read left to right the way CPython does, so
      the first problem met is the one reported. */
  function Format(template: string, args: seq<string>): (r: Result<string, FormatError>)
    ensures r.Failure? && r.error.ReplacementIndex? ==> r.error.index >= |args|
    decreases |template|
  {
    var t := template;
    if |t| == 0 then Success("")
    else if t[0] == '{' then
      if |t| == 1 then Failure(SingleOpenBrace)
      else if t[1] == '{' then PrependTo("{", Format(t[2..], args))
      else
        match CloseAt(t, 1)
        case None => Failure(UnclosedField)
        case Some(k) =>
          var field := t[1..k];
          if |field| == 0 || !AllDigits(field) then Failure(UnsupportedField(field))
          else if DecimalValue(field) < |args| then
            PrependTo(args[DecimalValue(field)], Format(t[k + 1..], args))
          else Failure(ReplacementIndex(DecimalValue(field)))
    else if t[0] == '}' then
      if |t| > 1 && t[1] == '}' then PrependTo("}", Format(t[2..], args))
      else Failure(SingleCloseBrace)
    else PrependTo([t[0]], Format(t[1..], args))
  }

  /** A template without braces is its own result, whatever the values. */
  lemma {:induction false} FormatPlainText(template: string, args: seq<string>)
    requires forall i :: 0 <= i < |template| ==> template[i] != '{' && template[i] != '}'
    ensures Format(template, args) == Success(template)
    decreases |template|
  {
    if |template| > 0 {
      FormatPlainText(template[1..], args);
      assert template == [template[0]] + template[1..];
    }
  }

  /** A lone placeholder `{n}` yields the n-th value, or the index error. */
  lemma FormatPlaceholder(n: nat, args: seq<string>)
    ensures Format("{" + DecimalText(n) + "}", args)
            == if n < |args| then Success(args[n]) else Failure(ReplacementIndex(n))
  {
    var digits := DecimalText(n);
    var t := "{" + digits + "}";
    assert t[1] == digits[0] && IsDigit(t[1]);
    assert forall i :: 1 <= i < |t| - 1 ==> t[i] == digits[i - 1] && t[i] != '}';
    assert t[|t| - 1] == '}';
    assert CloseAt(t, 1) == Some(|t| - 1);
    assert t[1..|t| - 1] == digits;
    DecimalRoundTrip(n);
    if n < |args| {
      assert t[|t|..] == "";
      assert Format(t[|t|..], args) == Success("");
      assert args[n] + "" == args[n];
    }
  }

  /** Brace-free text in front of a template is copied to the front of the
      result, and changes no error. */
  lemma {:induction false} FormatPlainPrefix(p: string, t: string, args: seq<string>)
    requires forall i :: 0 <= i < |p| ==> p[i] != '{' && p[i] != '}'
    ensures Format(p + t, args) == PrependTo(p, Format(t, args))
    decreases |p|
  {
    if |p| == 0 {
      assert p + t == t;
      if Format(t, args).Success? {
        assert p + Format(t, args).value == Format(t, args).value;
      }
    } else {
      var u := p + t;
      assert u[0] == p[0] && u[1..] == p[1..] + t;
      FormatPlainPrefix(p[1..], t, args);
      var rest := Format(t, args);
      if rest.Success? {
        assert [p[0]] + (p[1..] + rest.value) == p + rest.value;
      }
    }
  }

  /** A placeholder `{n}` in front of a template puts the n-th value in
      front of the result, or stops with the index error. */
  lemma FormatPlaceholderPrefix(n: nat, t: string, args: seq<string>)
    ensures Format("{" + DecimalText(n) + "}" + t, args)
            == if n < |args| then PrependTo(args[n], Format(t, args)) else Failure(ReplacementIndex(n))
  {
    var digits := DecimalText(n);
    var u := "{" + digits + "}" + t;
    var k := |digits| + 1;
    assert u[1] == digits[0] && IsDigit(u[1]);
    assert forall i :: 1 <= i < k ==> u[i] == digits[i - 1] && u[i] != '}';
    assert u[k] == '}';
    assert CloseAt(u, 1) == Some(k);
    assert u[1..k] == digits;
    assert u[k + 1..] == t;
    DecimalRoundTrip(n);
  }

  /** A template mixing text and a placeholder: `"at {0}!"` with the value
      `"x"` gives `"at x!"`. */
  lemma FormatMixedExample()
    ensures Format("at {0}!", ["x"]) == Success("at x!")
  {
    assert DecimalText(0) == "0";
    FormatPlainText("!", ["x"]);
    FormatPlaceholderPrefix(0, "!", ["x"]);
    assert "{" + DecimalText(0) + "}" + "!" == "{0}!";
    FormatPlainPrefix("at ", "{0}!", ["x"]);
    assert "at " + "{0}!" == "at {0}!";
    assert "at " + ("x" + "!") == "at x!";
  }

  /** Values the template does not mention change nothing: a successful
      format stays the same when more values are supplied. */
  lemma {:induction false} FormatIgnoresExtraValues(template: string, args: seq<string>, more: seq<string>)
    requires Format(template, args).Success?
    ensures Format(template, args + more) == Format(template, args)
    decreases |template|
  {
    var t := template;
    if |t| > 0 {
      if t[0] == '{' {
        if t[1] == '{' {
          FormatIgnoresExtraValues(t[2..], args, more);
        } else {
          var k := CloseAt(t, 1).value;
          FormatIgnoresExtraValues(t[k + 1..], args, more);
        }
      } else if t[0] == '}' {
        FormatIgnoresExtraValues(t[2..], args, more);
      } else {
        FormatIgnoresExtraValues(t[1..], args, more);
      }
    }
  }

  function FormatErrorText(e: FormatError): string {
    match e
    case ReplacementIndex(n) => "Replacement index " + DecimalText(n) + " out of range for positional args tuple"
    case SingleOpenBrace => "Single '{' encountered in format string"
    case SingleCloseBrace => "Single '}' encountered in format string"
    case UnclosedField => "expected '}' before end of string"
    case UnsupportedField(f) => "unsupported replacement field '" + f + "'"
  }

  /** Why a row could not be decoded: a list index past the row's end
      (IndexError), or a template that would not format. */
  datatype RowError = ListIndex | BadTemplate(error: FormatError)

  function RowErrorText(e: RowError): string {
    match e
    case ListIndex => "list index out of range"
    case BadTemplate(f) => FormatErrorText(f)
  }

  /** The key names of column 1: split on `,`, each stripped of whitespace. */
  function KeyNames(column: string): seq<string> {
    var parts := Split(column, ',');
    seq(|parts|, j requires 0 <= j < |parts| => Strip(parts[j]))
  }

  /** There is one key name more than there are commas, and no name holds a
      comma or begins or ends with whitespace. */
  lemma KeyNamesShape(column: string)
    ensures |KeyNames(column)| == 1 + Occurrences(column, ',')
    ensures forall j :: 0 <= j < |KeyNames(column)| ==> ',' !in KeyNames(column)[j] && IsTrimmed(KeyNames(column)[j])
  {
    var parts := Split(column, ',');
    var names := KeyNames(column);
    SplitCount(column, ',');
    forall j | 0 <= j < |names|
      ensures ',' !in names[j] && IsTrimmed(names[j])
    {
      StripAddsNothing(parts[j], ',');
    }
  }

  /** No whitespace at either end. */
  predicate IsTrimmed(s: string) {
    s == [] || (!IsSpace(s[0]) && !IsSpace(s[|s| - 1]))
  }

  /** Joining comma-free, trimmed names with `,` and reading the key names
      back gives the same names. */
  lemma KeyNamesOfJoin(names: seq<string>)
    requires |names| >= 1
    requires forall j :: 0 <= j < |names| ==> ',' !in names[j] && IsTrimmed(names[j])
    ensures KeyNames(Join(names, ',')) == names
  {
    var column := Join(names, ',');
    SplitJoin(names, ',');
    var parts := Split(column, ',');
    var k := KeyNames(column);
    assert |k| == |names|;
    forall j | 0 <= j < |names|
      ensures k[j] == names[j]
    {
      assert k[j] == Strip(parts[j]) && parts[j] == names[j];
      StripOfTrimmed(names[j]);
    }
  }

  lemma StripOfTrimmed(s: string)
    requires IsTrimmed(s)
    ensures Strip(s) == s
  {
    LStripOfClean(s);
    RStripOfClean(s);
  }

  /** `for j, k in enumerate(names): obj[k] = values[j]`: every name gets a
      value, a later duplicate name overwrites an earlier one, and keys not
      named keep their value. */
  function AssignKeys(m: map<string, string>, names: seq<string>, values: seq<string>): (r: map<string, string>)
    requires |names| <= |values|
    ensures r.Keys == m.Keys + (set n | n in names)
    decreases |names|
  {
    if |names| == 0 then m
    else
      var rest := names[1..];
      assert forall n :: n in names <==> n == names[0] || n in rest;
      AssignKeys(m[names[0] := values[0]], rest, values[1..])
  }

  /** The values `AssignKeys` leaves: each name's value column, the last
      one where a name repeats, and the old value of every key not named. */
  lemma {:induction false} AssignKeysValues(m: map<string, string>, names: seq<string>, values: seq<string>)
    requires |names| <= |values|
    ensures var r := AssignKeys(m, names, values);
            && (forall j :: 0 <= j < |names| && names[j] !in names[j + 1..] ==> r[names[j]] == values[j])
            && (forall k :: k in m && k !in names ==> r[k] == m[k])
    decreases |names|
  {
    if |names| > 0 {
      var rest := names[1..];
      var m' := m[names[0] := values[0]];
      AssignKeysValues(m', rest, values[1..]);
      var r := AssignKeys(m, names, values);
      assert r == AssignKeys(m', rest, values[1..]);
      forall j | 0 <= j < |names| && names[j] !in names[j + 1..]
        ensures r[names[j]] == values[j]
      {
        if j > 0 {
          assert rest[j - 1] == names[j] && rest[j..] == names[j + 1..];
        } else {
          assert names[1..] == rest;
        }
      }
      forall k | k in m && k !in names
        ensures r[k] == m[k]
      {
        assert k !in rest && k != names[0];
      }
    }
  }

  /** One data row: `keys = row[1].split(',')`, then
      `{'description': row[0].format(*row[2:])}`, then the keys assigned in
      order. */
  function DecodeRow(row: seq<string>): Result<map<string, string>, RowError> {
    if |row| < 2 then Failure(ListIndex)
    else
      var names := KeyNames(row[1]);
      match Format(row[0], row[2..])
      case Failure(e) => Failure(BadTemplate(e))
      case Success(description) =>
        if |names| > |row| - 2 then Failure(ListIndex)
        else Success(AssignKeys(map["description" := description], names, row[2..]))
  }

  /** What decoding one row means. It fails exactly when the row has fewer
      than two columns, its template does not format against columns 2..,
      or it names more keys than there are value columns; those checks
      happen in that order. On success the map holds `description` and
      every stripped key name; each name maps to its value column (the last
      one where a name repeats), and `description` is the filled template
      unless a key of that name overwrote it. */
  lemma DecodeRowSpec(row: seq<string>)
    ensures var r := DecodeRow(row);
      && (r.Success? <==> && |row| >= 2
                          && Format(row[0], row[2..]).Success?
                          && |KeyNames(row[1])| <= |row| - 2)
      && (|row| < 2 ==> r == Failure(ListIndex))
      && (|row| >= 2 && Format(row[0], row[2..]).Failure? ==>
            r == Failure(BadTemplate(Format(row[0], row[2..]).error)))
      && (|row| >= 2 && Format(row[0], row[2..]).Success? && |KeyNames(row[1])| > |row| - 2 ==>
            r == Failure(ListIndex))
      && (r.Success? ==>
            var names := KeyNames(row[1]);
            && r.value.Keys == {"description"} + (set n | n in names)
            && ("description" !in names ==> r.value["description"] == Format(row[0], row[2..]).value)
            && forall j :: 0 <= j < |names| && names[j] !in names[j + 1..] ==> r.value[names[j]] == row[j + 2])
  {
    if |row| >= 2 && Format(row[0], row[2..]).Success? && |KeyNames(row[1])| <= |row| - 2 {
      AssignKeysValues(map["description" := Format(row[0], row[2..]).value], KeyNames(row[1]), row[2..]);
    }
  }

  /** Per-row outcomes combined the way the decoding loop does: the first
      failure, or every map in order. */
  function FirstFailure(outcomes: seq<Result<map<string, string>, RowError>>)
    : (r: Result<seq<map<string, string>>, RowError>)
    ensures r.Success? ==> |r.value| == |outcomes|
                           && forall i :: 0 <= i < |outcomes| ==> outcomes[i] == Success(r.value[i])
    decreases |outcomes|
  {
    if |outcomes| == 0 then Success([])
    else
      match outcomes[0]
      case Failure(e) => Failure(e)
      case Success(m) =>
        var rest := outcomes[1..];
        match FirstFailure(rest)
        case Failure(e) => Failure(e)
        case Success(ms) =>
          var all := [m] + ms;
          assert forall i :: 1 <= i < |outcomes| ==> all[i] == ms[i - 1] && outcomes[i] == rest[i - 1];
          Success(all)
  }

  /** If no outcome is a failure, the combination succeeds. */
  lemma {:induction false} NoFailureSucceeds(outcomes: seq<Result<map<string, string>, RowError>>)
    requires forall i :: 0 <= i < |outcomes| ==> outcomes[i].Success?
    ensures FirstFailure(outcomes).Success?
    decreases |outcomes|
  {
    if |outcomes| > 0 {
      var rest := outcomes[1..];
      assert forall i :: 0 <= i < |rest| ==> rest[i] == outcomes[i + 1];
      NoFailureSucceeds(rest);
    }
  }

  /** The combination reports the error of the first failure. */
  lemma {:induction false} FirstFailureWins(outcomes: seq<Result<map<string, string>, RowError>>, k: nat)
    requires k < |outcomes| && outcomes[k].Failure?
    requires forall j :: 0 <= j < k ==> outcomes[j].Success?
    ensures FirstFailure(outcomes) == Failure(outcomes[k].error)
    decreases k
  {
    if k > 0 {
      var rest := outcomes[1..];
      assert forall j :: 0 <= j < |rest| ==> rest[j] == outcomes[j + 1];
      FirstFailureWins(rest, k - 1);
    }
  }

  /** Each data row's own decoding, in order. */
  function RowOutcomes(data: seq<seq<string>>): seq<Result<map<string, string>, RowError>> {
    seq(|data|, i requires 0 <= i < |data| => DecodeRow(data[i]))
  }

  /** The data rows decoded in order, stopping at the first row that fails;
      a success holds, at each position, that row's own map. */
  function DecodeRows(data: seq<seq<string>>): (r: Result<seq<map<string, string>>, RowError>)
    ensures r.Success? ==> |r.value| == |data|
                           && forall i :: 0 <= i < |data| ==> DecodeRow(data[i]) == Success(r.value[i])
  {
    FirstFailure(RowOutcomes(data))
  }

  /** An element of the list `_csv_parse` returns: a field map, or the
      error string. */
  datatype Entry = Record(fields: map<string, string>) | Message(text: string)

  const ErrorPrefix := "Error: CSV parsing error: "

  /** `_csv_parse`. Row 0 is a header and is skipped. The result is either
      one record per data row, or exactly one message. */
  function Decode(rows: seq<seq<string>>): (r: seq<Entry>)
    ensures (|r| == 1 && r[0].Message?) || forall i :: 0 <= i < |r| ==> r[i].Record?
    ensures r == [] <==> |rows| <= 1
  {
    if |rows| == 0 then []
    else
      match DecodeRows(rows[1..])
      case Success(ms) => seq(|ms|, i requires 0 <= i < |ms| => Record(ms[i]))
      case Failure(e) => [Message(ErrorPrefix + RowErrorText(e))]
  }

  /** Well-formed input: one record per data row, in row order, each being
      that row's decoded map. */
  lemma DecodeWellFormed(rows: seq<seq<string>>)
    requires |rows| >= 1
    requires forall i :: 1 <= i < |rows| ==> DecodeRow(rows[i]).Success?
    ensures |Decode(rows)| == |rows| - 1
    ensures forall i :: 0 <= i < |rows| - 1 ==> Decode(rows)[i] == Record(DecodeRow(rows[i + 1]).value)
  {
    var data := rows[1..];
    var outcomes := RowOutcomes(data);
    assert forall i :: 0 <= i < |data| ==> data[i] == rows[i + 1];
    NoFailureSucceeds(outcomes);
    var ms := DecodeRows(data).value;
    assert Decode(rows) == seq(|ms|, i requires 0 <= i < |ms| => Record(ms[i]));
  }

  /** All or nothing: if data row `i` is the first one that fails, the whole
      result is that row's error alone, and nothing decoded from the rows
      before it is returned. */
  lemma DecodeAllOrNothing(rows: seq<seq<string>>, i: nat)
    requires 1 <= i < |rows|
    requires DecodeRow(rows[i]).Failure?
    requires forall j :: 1 <= j < i ==> DecodeRow(rows[j]).Success?
    ensures Decode(rows) == [Message(ErrorPrefix + RowErrorText(DecodeRow(rows[i]).error))]
  {
    var data := rows[1..];
    assert forall j :: 0 <= j < |data| ==> data[j] == rows[j + 1];
    DecodeRowsStopsAt(data, i - 1);
  }

  /** The data rows stop at the first one that fails, with its error. */
  lemma DecodeRowsStopsAt(data: seq<seq<string>>, k: nat)
    requires k < |data| && DecodeRow(data[k]).Failure?
    requires forall j :: 0 <= j < k ==> DecodeRow(data[j]).Success?
    ensures DecodeRows(data) == Failure(DecodeRow(data[k]).error)
  {
    FirstFailureWins(RowOutcomes(data), k);
  }

  /** The header row's contents never matter. */
  lemma DecodeIgnoresHeader(h1: seq<string>, h2: seq<string>, data: seq<seq<string>>)
    ensures Decode([h1] + data) == Decode([h2] + data)
  {
    assert ([h1] + data)[1..] == data == ([h2] + data)[1..];
  }
}

=== FILE: source_records.dfy ===
/** The `source` table row of the CodeQL-for-Python cache
    (codeql_sqlite_models.py), and the two distinctness properties that
    matter for it: the one the schema enforces (the integer primary key) and
    the one it does not (the natural key `(repo, source_location)`). */
module SourceRecords {
  import opened Wrappers

  /** One cached taint source. `sourceType` is the column named `type`;
      `notes` is the only nullable column. */
  datatype Source = Source(
    id: int,
    repo: string,
    location: string,
    sourceType: string,
    notes: Option<string>)

  /** The natural key the store looks records up by. */
  datatype Key = Key(repo: string, location: string)

  function KeyOf(s: Source): Key {
    Key(s.repo, s.location)
  }

  /** The notes after appending `more`: a NULL column reads as the empty string. */
  function AppendNotes(notes: Option<string>, more: string): (r: string)
    ensures notes.None? ==> r == more
    ensures notes.Some? ==> r == notes.value + more
  {
    notes.GetOr("") + more
  }

  /** What the primary key guarantees: no two rows share an id. */
  predicate IdsDistinct(rows: seq<Source>) {
    forall i, j :: 0 <= i < j < |rows| ==> rows[i].id != rows[j].id
  }

  /** What the table does NOT guarantee and the store operations must keep:
      no two rows share a `(repo, source_location)` pair. */
  predicate KeysDistinct(rows: seq<Source>) {
    forall i, j :: 0 <= i < j < |rows| ==> KeyOf(rows[i]) != KeyOf(rows[j])
  }

  /** Two rows for one location with distinct ids satisfy the schema but not
      the key invariant: uniqueness is a property of the operations, not of
      the table. */
  lemma SchemaAdmitsDuplicateKeys(a: Source, b: Source)
    requires a.id != b.id && KeyOf(a) == KeyOf(b)
    ensures IdsDistinct([a, b]) && !KeysDistinct([a, b])
  {
    assert [a, b][0] == a && [a, b][1] == b;
  }
}

=== FILE: source_store.dfy ===
/** The source cache of the CodeQL-for-Python server
    (`CodeqlSqliteBackend` and the delete in `clear_codeql_repo`,
    mcp_server.py). The table is a sequence of rows in storage order; each
    operation maps a store to a new store. */
module SourceStore {
  import opened Wrappers
  import opened SourceRecords

  datatype Store = Store(rows: seq<Source>)

  /** The invariant the operations keep: distinct ids and distinct keys. */
  predicate Valid(s: Store) {
    IdsDistinct(s.rows) && KeysDistinct(s.rows)
  }

  /** `r` is the index of the first row at `key`, or `None` if there is none. */
  predicate IsFirstMatch(rows: seq<Source>, key: Key, r: Option<nat>) {
    match r
    case Some(i) => i < |rows| && KeyOf(rows[i]) == key
                    && forall j :: 0 <= j < i ==> KeyOf(rows[j]) != key
    case None => forall j :: 0 <= j < |rows| ==> KeyOf(rows[j]) != key
  }

  lemma FirstMatchUnique(rows: seq<Source>, key: Key, a: Option<nat>, b: Option<nat>)
    requires IsFirstMatch(rows, key, a) && IsFirstMatch(rows, key, b)
    ensures a == b
  {
  }

  /** The row `query(Source).filter_by(repo=..., source_location=...).first()` finds. */
  function FindAt(rows: seq<Source>, key: Key): (r: Option<nat>)
    ensures IsFirstMatch(rows, key, r)
    decreases |rows|
  {
    if |rows| == 0 then None
    else if KeyOf(rows[0]) == key then Some(0)
    else match FindAt(rows[1..], key)
      case None => None
      case Some(i) => Some(i + 1)
  }

  /** The record stored at `key`, if any. */
  function Lookup(s: Store, key: Key): (r: Option<Source>)
    ensures r.Some? ==> r.value in s.rows && KeyOf(r.value) == key
    ensures r.None? ==> forall x :: x in s.rows ==> KeyOf(x) != key
  {
    match FindAt(s.rows, key)
    case Some(i) => Some(s.rows[i])
    case None => None
  }

  /** The largest positive id in use, or 0 when there is none. */
  function MaxId(rows: seq<Source>): (m: int)
    ensures m >= 0
    ensures forall i :: 0 <= i < |rows| ==> rows[i].id <= m
    decreases |rows|
  {
    if |rows| == 0 then 0
    else
      var m := MaxId(rows[..|rows| - 1]);
      if rows[|rows| - 1].id > m then rows[|rows| - 1].id else m
  }

  /** The id a new row gets: one more than the largest positive id in use,
      or 1 when there is none. On the tables the operations build, where
      every id is positive, this is SQLite's INTEGER PRIMARY KEY rule. */
  function NextId(rows: seq<Source>): (id: int)
    ensures id >= 1
    ensures forall i :: 0 <= i < |rows| ==> rows[i].id < id
  {
    MaxId(rows) + 1
  }

  datatype StoreOutcome = Updated | NoSuchSource | Added

  /** The string `store_new_source` returns for each outcome. */
  function OutcomeMessage(o: StoreOutcome, repo: string, location: string): string {
    match o
    case Updated => "Updated notes for source at " + location + " in " + repo + "."
    case NoSuchSource => "No source exists at repo " + repo + ", location " + location
    case Added => "Added new source for " + location + " in " + repo + "."
  }

  lemma FindAtAfterUpdate(rows: seq<Source>, i: nat, x: Source, key: Key)
    requires i < |rows| && KeyOf(x) == KeyOf(rows[i])
    ensures FindAt(rows[i := x], key) == FindAt(rows, key)
  {
    FirstMatchUnique(rows[i := x], key, FindAt(rows[i := x], key), FindAt(rows, key));
  }

  lemma FindAtAfterAppend(rows: seq<Source>, x: Source, key: Key)
    requires FindAt(rows, KeyOf(x)).None?
    ensures key == KeyOf(x) ==> FindAt(rows + [x], key) == Some(|rows|)
    ensures key != KeyOf(x) ==> FindAt(rows + [x], key) == FindAt(rows, key)
  {
    var rows' := rows + [x];
    if key == KeyOf(x) {
      FirstMatchUnique(rows', key, FindAt(rows', key), Some(|rows|));
    } else {
      FirstMatchUnique(rows', key, FindAt(rows', key), FindAt(rows, key));
    }
  }

  /** `store_new_source(repo, source_location, type, notes, update)`: the one
      merge primitive behind both "record a source" (`update == false`) and
      "annotate a source" (`update == true`). Seen through `Lookup`: an
      existing record gets `notes` appended whatever the flag; otherwise an
      annotation changes nothing and a recording adds exactly one record with
      a new id. No other key is touched. */
  function StoreNewSource(s: Store, repo: string, location: string, sourceType: string,
                          notes: string, update: bool): (r: (Store, StoreOutcome))
    ensures var before := Lookup(s, Key(repo, location));
      && (before.Some? ==>
            && r.1 == Updated
            && |r.0.rows| == |s.rows|
            && Lookup(r.0, Key(repo, location))
               == Some(before.value.(notes := Some(AppendNotes(before.value.notes, notes)))))
      && (before.None? && update ==> r.1 == NoSuchSource && r.0 == s)
      && (before.None? && !update ==>
            && r.1 == Added
            && |r.0.rows| == |s.rows| + 1
            && Lookup(r.0, Key(repo, location))
               == Some(Source(NextId(s.rows), repo, location, sourceType, Some(notes)))
            && forall x :: x in s.rows ==> x.id < NextId(s.rows))
    ensures forall k :: k != Key(repo, location) ==> Lookup(r.0, k) == Lookup(s, k)
  {
    var key := Key(repo, location);
    match FindAt(s.rows, key)
    case Some(i) =>
      var existing := s.rows[i];
      var merged := existing.(notes := Some(AppendNotes(existing.notes, notes)));
      forall k ensures FindAt(s.rows[i := merged], k) == FindAt(s.rows, k) {
        FindAtAfterUpdate(s.rows, i, merged, k);
      }
      (Store(s.rows[i := merged]), Updated)
    case None =>
      if update then (s, NoSuchSource)
      else
        var added := Source(NextId(s.rows), repo, location, sourceType, Some(notes));
        forall k ensures k == key ==> FindAt(s.rows + [added], k) == Some(|s.rows|)
                   ensures k != key ==> FindAt(s.rows + [added], k) == FindAt(s.rows, k) {
          FindAtAfterAppend(s.rows, added, k);
        }
        (Store(s.rows + [added]), Added)
  }

  /** When a record exists, the flag and the type argument make no
      difference: recording and annotating are the same merge. */
  lemma MergeIgnoresFlagAndType(s: Store, repo: string, location: string,
                                t1: string, t2: string, notes: string, u1: bool, u2: bool)
    requires Lookup(s, Key(repo, location)).Some?
    ensures StoreNewSource(s, repo, location, t1, notes, u1)
            == StoreNewSource(s, repo, location, t2, notes, u2)
  {
  }

  /** The rows of `repo`, in storage order (`get_sources`). */
  function SourcesOf(rows: seq<Source>, repo: string): (r: seq<Source>)
    ensures |r| <= |rows|
    ensures forall x :: x in r <==> x in rows && x.repo == repo
    decreases |rows|
  {
    if |rows| == 0 then []
    else
      var last := rows[|rows| - 1];
      SourcesOf(rows[..|rows| - 1], repo) + (if last.repo == repo then [last] else [])
  }

  function GetSources(s: Store, repo: string): seq<Source> {
    SourcesOf(s.rows, repo)
  }

  /** The rows of every repository except `repo`, in storage order. */
  function Without(rows: seq<Source>, repo: string): (r: seq<Source>)
    ensures forall x :: x in r <==> x in rows && x.repo != repo
    decreases |rows|
  {
    if |rows| == 0 then []
    else
      var init := rows[..|rows| - 1];
      var last := rows[|rows| - 1];
      assert rows == init + [last];
      Without(init, repo) + (if last.repo != repo then [last] else [])
  }

  /** The delete accounts for every row: what it keeps plus the rows of
      `repo` make up the whole table. */
  lemma {:induction false} WithoutCount(rows: seq<Source>, repo: string)
    ensures |Without(rows, repo)| + |SourcesOf(rows, repo)| == |rows|
    decreases |rows|
  {
    if |rows| > 0 {
      var init := rows[..|rows| - 1];
      var last := rows[|rows| - 1];
      WithoutCount(init, repo);
      assert Without(rows, repo) == Without(init, repo) + (if last.repo != repo then [last] else []);
      assert SourcesOf(rows, repo) == SourcesOf(init, repo) + (if last.repo == repo then [last] else []);
    }
  }

  /** After the delete, `repo` has no rows and every other repository has
      the rows it had, in order. */
  lemma {:induction false} WithoutListing(rows: seq<Source>, repo: string, other: string)
    ensures SourcesOf(Without(rows, repo), other) == if other == repo then [] else SourcesOf(rows, other)
    decreases |rows|
  {
    if |rows| > 0 {
      var init := rows[..|rows| - 1];
      var last := rows[|rows| - 1];
      var w := Without(init, repo);
      WithoutListing(init, repo, other);
      assert Without(rows, repo) == w + (if last.repo != repo then [last] else []);
      assert SourcesOf(rows, other) == SourcesOf(init, other) + (if last.repo == other then [last] else []);
      if last.repo != repo {
        SourcesOfSnoc(w, last, other);
      } else {
        assert w + [] == w;
      }
    }
  }

  lemma SourcesOfSnoc(rows: seq<Source>, x: Source, repo: string)
    ensures SourcesOf(rows + [x], repo) == SourcesOf(rows, repo) + (if x.repo == repo then [x] else [])
  {
    assert (rows + [x])[..|rows|] == rows;
  }

  /** Appending a row extends the rows of its repository by that row and
      leaves every other repository's rows as they were. */
  lemma SourcesOfAppend(rows: seq<Source>, x: Source)
    ensures forall repo :: SourcesOf(rows + [x], repo)
                           == SourcesOf(rows, repo) + (if x.repo == repo then [x] else [])
  {
    assert (rows + [x])[..|rows|] == rows;
  }

  /** `clear_codeql_repo`'s delete: every row of `repo` goes and the count
      of deleted rows is returned. */
  function Clear(s: Store, repo: string): (r: (Store, nat))
    ensures r.1 == |GetSources(s, repo)|
    ensures GetSources(r.0, repo) == []
    ensures forall x :: x in r.0.rows <==> x in s.rows && x.repo != repo
  {
    var kept := Without(s.rows, repo);
    WithoutCount(s.rows, repo);
    WithoutListing(s.rows, repo, repo);
    (Store(kept), |s.rows| - |kept|)
  }

  /** Clearing one repository leaves every other repository's rows as they
      were, in order. */
  lemma ClearKeepsOtherRepos(s: Store, repo: string, other: string)
    requires other != repo
    ensures GetSources(Clear(s, repo).0, other) == GetSources(s, other)
  {
    WithoutListing(s.rows, repo, other);
  }

  /** Updating a row in place without changing its repository leaves every
      other repository's rows as they were. */
  lemma {:induction false} SourcesOfUpdate(rows: seq<Source>, i: nat, x: Source, repo: string)
    requires i < |rows| && x.repo == rows[i].repo && x.repo != repo
    ensures SourcesOf(rows[i := x], repo) == SourcesOf(rows, repo)
    decreases |rows|
  {
    var rows' := rows[i := x];
    var n := |rows|;
    var init := rows[..n - 1];
    var init' := rows'[..n - 1];
    assert SourcesOf(rows', repo)
           == SourcesOf(init', repo) + (if rows'[n - 1].repo == repo then [rows'[n - 1]] else []);
    assert SourcesOf(rows, repo)
           == SourcesOf(init, repo) + (if rows[n - 1].repo == repo then [rows[n - 1]] else []);
    if i < n - 1 {
      assert init' == init[i := x];
      SourcesOfUpdate(init, i, x, repo);
    } else {
      assert init' == init;
    }
  }

  /** Both kinds of call keep ids and keys distinct. */
  lemma StorePreservesValid(s: Store, repo: string, location: string, sourceType: string,
                            notes: string, update: bool)
    requires Valid(s)
    ensures Valid(StoreNewSource(s, repo, location, sourceType, notes, update).0)
  {
    var key := Key(repo, location);
    match FindAt(s.rows, key)
    case Some(i) =>
    case None =>
      if !update {
        var rows' := StoreNewSource(s, repo, location, sourceType, notes, update).0.rows;
        assert rows' == s.rows + [Source(NextId(s.rows), repo, location, sourceType, Some(notes))];
      }
  }

  /** A call about `repo` never changes what `get_sources` returns for any
      other repository; a recording that adds a row puts it last in its own
      repository's listing. */
  lemma StoreKeepsOtherRepos(s: Store, repo: string, location: string, sourceType: string,
                             notes: string, update: bool)
    ensures var r := StoreNewSource(s, repo, location, sourceType, notes, update);
      && (forall other :: other != repo ==> GetSources(r.0, other) == GetSources(s, other))
      && (r.1 == Added ==> GetSources(r.0, repo)
                           == GetSources(s, repo) + [Source(NextId(s.rows), repo, location, sourceType, Some(notes))])
  {
    var key := Key(repo, location);
    var r := StoreNewSource(s, repo, location, sourceType, notes, update);
    match FindAt(s.rows, key)
    case Some(i) =>
      var merged := s.rows[i].(notes := Some(AppendNotes(s.rows[i].notes, notes)));
      assert r.0.rows == s.rows[i := merged];
      forall other | other != repo
        ensures GetSources(r.0, other) == GetSources(s, other)
      {
        SourcesOfUpdate(s.rows, i, merged, other);
      }
    case None =>
      if !update {
        SourcesOfAppend(s.rows, Source(NextId(s.rows), repo, location, sourceType, Some(notes)));
      }
  }

  /** A sequence of annotate-only calls (`add_source_notes`) at one location. */
  function AnnotateAll(s: Store, repo: string, location: string, notes: seq<string>): Store
    decreases |notes|
  {
    if |notes| == 0 then s
    else AnnotateAll(StoreNewSource(s, repo, location, "", notes[0], true).0, repo, location, notes[1..])
  }

  function Concatenation(parts: seq<string>): string
    decreases |parts|
  {
    if |parts| == 0 then "" else parts[0] + Concatenation(parts[1..])
  }

  /** Annotations accumulate: after N >= 1 annotate-only calls on an
      existing record its notes are the old notes (NULL read as empty)
      followed by the N strings in call order, and nothing else about it
      changes. */
  lemma {:induction false} AnnotationsAccumulate(s: Store, repo: string, location: string, notes: seq<string>)
    requires Lookup(s, Key(repo, location)).Some?
    requires |notes| >= 1
    ensures var x := Lookup(s, Key(repo, location)).value;
      Lookup(AnnotateAll(s, repo, location, notes), Key(repo, location))
      == Some(x.(notes := Some(AppendNotes(x.notes, Concatenation(notes)))))
    decreases |notes|
  {
    var x := Lookup(s, Key(repo, location)).value;
    var s1 := StoreNewSource(s, repo, location, "", notes[0], true).0;
    var x1 := x.(notes := Some(AppendNotes(x.notes, notes[0])));
    assert Lookup(s1, Key(repo, location)) == Some(x1);
    assert AnnotateAll(s, repo, location, notes) == AnnotateAll(s1, repo, location, notes[1..]);
    assert Concatenation(notes) == notes[0] + Concatenation(notes[1..]);
    if |notes| > 1 {
      AnnotationsAccumulate(s1, repo, location, notes[1..]);
      assert AppendNotes(x1.notes, Concatenation(notes[1..])) == AppendNotes(x.notes, Concatenation(notes));
    } else {
      assert Concatenation(notes) == notes[0];
    }
  }

  /** An annotation on a location that was never recorded changes nothing,
      however many are made. */
  lemma {:induction false} AnnotateMissingIsNoOp(s: Store, repo: string, location: string, notes: seq<string>)
    requires Lookup(s, Key(repo, location)).None?
    ensures AnnotateAll(s, repo, location, notes) == s
    decreases |notes|
  {
    if |notes| > 0 {
      AnnotateMissingIsNoOp(s, repo, location, notes[1..]);
    }
  }

  /** Recording a new location once and then annotating it N >= 1 times leaves
      exactly one record there, with the recorded type and the first notes
      followed by every annotation in order. */
  lemma RecordThenAnnotate(s: Store, repo: string, location: string, sourceType: string,
                           first: string, notes: seq<string>)
    requires Valid(s) && Lookup(s, Key(repo, location)).None?
    requires |notes| >= 1
    ensures var s' := AnnotateAll(StoreNewSource(s, repo, location, sourceType, first, false).0,
                                  repo, location, notes);
      && Valid(s')
      && Lookup(s', Key(repo, location))
         == Some(Source(NextId(s.rows), repo, location, sourceType, Some(first + Concatenation(notes))))
  {
    var s1 := StoreNewSource(s, repo, location, sourceType, first, false).0;
    StorePreservesValid(s, repo, location, sourceType, first, false);
    AnnotationsAccumulate(s1, repo, location, notes);
    AnnotatePreservesValid(s1, repo, location, notes);
  }

  lemma {:induction false} AnnotatePreservesValid(s: Store, repo: string, location: string, notes: seq<string>)
    requires Valid(s)
    ensures Valid(AnnotateAll(s, repo, location, notes))
    decreases |notes|
  {
    if |notes| > 0 {
      StorePreservesValid(s, repo, location, "", notes[0], true);
      AnnotatePreservesValid(StoreNewSource(s, repo, location, "", notes[0], true).0,
                             repo, location, notes[1..]);
    }
  }

  /** One `store_new_source` call, with its arguments. */
  datatype Call = Call(repo: string, location: string, sourceType: string, notes: string, update: bool)

  function Replay(s: Store, calls: seq<Call>): Store
    decreases |calls|
  {
    if |calls| == 0 then s
    else
      var c := calls[0];
      Replay(StoreNewSource(s, c.repo, c.location, c.sourceType, c.notes, c.update).0, calls[1..])
  }

  /** Any sequence of calls, recording and annotating in any mix, starting
      from a valid table (the empty one included) keeps ids distinct and at
      most one record per (repo, location). */
  lemma {:induction false} ReplayKeepsKeysDistinct(s: Store, calls: seq<Call>)
    requires Valid(s)
    ensures Valid(Replay(s, calls))
    decreases |calls|
  {
    if |calls| > 0 {
      var c := calls[0];
      StorePreservesValid(s, c.repo, c.location, c.sourceType, c.notes, c.update);
      ReplayKeepsKeysDistinct(StoreNewSource(s, c.repo, c.location, c.sourceType, c.notes, c.update).0,
                              calls[1..]);
    }
  }

  /** Clearing keeps ids and keys distinct. */
  lemma ClearPreservesValid(s: Store, repo: string)
    requires Valid(s)
    ensures Valid(Clear(s, repo).0)
  {
    WithoutPreservesDistinct(s.rows, repo);
  }

  /** Appending a row that shares neither id nor key with any row keeps
      ids and keys distinct. */
  lemma AppendKeepsDistinct(rows: seq<Source>, x: Source)
    requires IdsDistinct(rows) && KeysDistinct(rows)
    requires forall y :: y in rows ==> y.id != x.id && KeyOf(y) != KeyOf(x)
    ensures IdsDistinct(rows + [x]) && KeysDistinct(rows + [x])
  {
    var r := rows + [x];
    assert forall i :: 0 <= i < |rows| ==> r[i] == rows[i] && rows[i] in rows;
  }

  /** In a table with distinct ids and keys, the last row shares neither
      with any earlier row. */
  lemma LastRowDiffers(rows: seq<Source>)
    requires |rows| > 0 && IdsDistinct(rows) && KeysDistinct(rows)
    ensures var last := rows[|rows| - 1];
            forall y :: y in rows[..|rows| - 1] ==> y.id != last.id && KeyOf(y) != KeyOf(last)
  {
    var init := rows[..|rows| - 1];
    forall y | y in init
      ensures y.id != rows[|rows| - 1].id && KeyOf(y) != KeyOf(rows[|rows| - 1])
    {
      var j :| 0 <= j < |init| && init[j] == y;
      assert rows[j] == y;
    }
  }

  lemma {:induction false} WithoutPreservesDistinct(rows: seq<Source>, repo: string)
    requires IdsDistinct(rows) && KeysDistinct(rows)
    ensures IdsDistinct(Without(rows, repo)) && KeysDistinct(Without(rows, repo))
    decreases |rows|
  {
    if |rows| > 0 {
      var init := rows[..|rows| - 1];
      var last := rows[|rows| - 1];
      assert IdsDistinct(init) && KeysDistinct(init) by {
        assert forall j :: 0 <= j < |init| ==> init[j] == rows[j];
      }
      WithoutPreservesDistinct(init, repo);
      if last.repo != repo {
        LastRowDiffers(rows);
        AppendKeepsDistinct(Without(init, repo), last);
      } else {
        assert Without(rows, repo) == Without(init, repo) + [];
      }
    }
  }
}

=== FILE: strings.dfy ===
/** The handful of Python `str` operations the core relies on: `isspace`,
    `strip`, `lstrip(c)`, `startswith`, `split(sep)`, `sep.join` and decimal
    conversion of non-negative integers. Strings are sequences of Unicode
    scalar values, as Python's are. */
module Strings {

  /** Python's `str.isspace()` on a single character: the ASCII separators
      and controls it accepts, NEL, NBSP and the Unicode space separators. */
  predicate IsSpace(c: char) {
    var n := c as int;
    || n == 0x20
    || 0x09 <= n <= 0x0D
    || 0x1C <= n <= 0x1F
    || n == 0x85 || n == 0xA0 || n == 0x1680
    || 0x2000 <= n <= 0x200A
    || n == 0x2028 || n == 0x2029 || n == 0x202F || n == 0x205F || n == 0x3000
  }

  predicate StartsWith(s: string, prefix: string) {
    |prefix| <= |s| && s[..|prefix|] == prefix
  }

  /** `s.lstrip()`: the longest suffix of `s` that does not start with whitespace. */
  function LStrip(s: string): (r: string)
    ensures |r| <= |s| && r == s[|s| - |r|..]
    ensures forall i :: 0 <= i < |s| - |r| ==> IsSpace(s[i])
    ensures r == [] || !IsSpace(r[0])
    decreases |s|
  {
    if |s| > 0 && IsSpace(s[0]) then LStrip(s[1..]) else s
  }

  /** `s.rstrip()`: the longest prefix of `s` that does not end with whitespace. */
  function RStrip(s: string): (r: string)
    ensures |r| <= |s| && r == s[..|r|]
    ensures forall i :: |r| <= i < |s| ==> IsSpace(s[i])
    ensures r == [] || !IsSpace(r[|r| - 1])
    decreases |s|
  {
    if |s| > 0 && IsSpace(s[|s| - 1]) then RStrip(s[..|s| - 1]) else s
  }

  /** `s.strip()`: whitespace removed from both ends, nothing else touched. */
  function Strip(s: string): (r: string)
    ensures |r| <= |s|
    ensures r == [] || (!IsSpace(r[0]) && !IsSpace(r[|r| - 1]))
  {
    RStrip(LStrip(s))
  }

  /** What `strip` leaves is a slice of `s` with only whitespace outside
      it; with the non-space ends of the result, it drops exactly the
      leading and the trailing whitespace. */
  lemma {:induction false} StripIsMiddle(s: string)
    ensures var r := Strip(s);
            exists a :: 0 <= a <= |s| - |r| && SliceWithin(s, r, a)
  {
    var l := LStrip(s);
    SuffixPrefix(s, l, RStrip(l));
    assert SliceWithin(s, Strip(s), |s| - |l|);
  }

  /** `r` is `s[a..a + |r|]` and everything of `s` outside it is whitespace. */
  predicate SliceWithin(s: string, r: string, a: nat)
    requires a + |r| <= |s|
  {
    && r == s[a..a + |r|]
    && (forall i :: 0 <= i < a ==> IsSpace(s[i]))
    && (forall i :: a + |r| <= i < |s| ==> IsSpace(s[i]))
  }

  /** A prefix `r` of a suffix `l` of `s` is a slice of `s`, and what `r`
      leaves of `l` is the end of `s`. */
  lemma {:induction false} SuffixPrefix(s: string, l: string, r: string)
    requires |l| <= |s| && l == s[|s| - |l|..]
    requires forall i :: 0 <= i < |s| - |l| ==> IsSpace(s[i])
    requires |r| <= |l| && r == l[..|r|]
    requires forall i :: |r| <= i < |l| ==> IsSpace(l[i])
    ensures SliceWithin(s, r, |s| - |l|)
  {
    var a := |s| - |l|;
    forall i | a + |r| <= i < |s|
      ensures IsSpace(s[i])
    {
      assert s[i] == l[i - a];
    }
  }

  /** `strip` adds no character: anything in the result is in the input. */
  lemma StripAddsNothing(s: string, c: char)
    ensures c in Strip(s) ==> c in s
  {
    var l := LStrip(s);
    var r := RStrip(l);
    if c in r {
      var k :| 0 <= k < |r| && r[k] == c;
      assert l[k] == c;
      assert s[|s| - |l| + k] == c;
    }
  }

  lemma RStripOfClean(s: string)
    requires s == [] || !IsSpace(s[|s| - 1])
    ensures RStrip(s) == s
  {
  }

  lemma LStripOfClean(s: string)
    requires s == [] || !IsSpace(s[0])
    ensures LStrip(s) == s
  {
  }

  /** Stripping twice is stripping once. */
  lemma StripIdempotent(s: string)
    ensures Strip(Strip(s)) == Strip(s)
  {
    var r := Strip(s);
    LStripOfClean(r);
    RStripOfClean(r);
  }

  /** `s.lstrip(c)`: the longest suffix of `s` that does not start with `c`. */
  function TrimLeading(s: string, c: char): (r: string)
    ensures |r| <= |s| && r == s[|s| - |r|..]
    ensures forall i :: 0 <= i < |s| - |r| ==> s[i] == c
    ensures r == [] || r[0] != c
    decreases |s|
  {
    if |s| > 0 && s[0] == c then TrimLeading(s[1..], c) else s
  }

  /** `sep.join(parts)`. */
  function Join(parts: seq<string>, sep: char): string
    decreases |parts|
  {
    if |parts| == 0 then ""
    else if |parts| == 1 then parts[0]
    else parts[0] + [sep] + Join(parts[1..], sep)
  }

  /** Joining two non-empty lists is joining each and putting one separator between. */
  lemma {:induction false} JoinAppend(a: seq<string>, b: seq<string>, sep: char)
    requires |a| >= 1 && |b| >= 1
    ensures Join(a + b, sep) == Join(a, sep) + [sep] + Join(b, sep)
    decreases |a|
  {
    var ab := a + b;
    assert ab[0] == a[0];
    if |a| > 1 {
      assert ab[1..] == a[1..] + b;
      JoinAppend(a[1..], b, sep);
    } else {
      assert ab[1..] == b;
    }
  }

  /** How many times `c` occurs in `s`. */
  function Occurrences(s: string, c: char): nat
    decreases |s|
  {
    if |s| == 0 then 0 else (if s[0] == c then 1 else 0) + Occurrences(s[1..], c)
  }

  /** `s.split(sep)` for a one-character separator: never empty, no part
      holds the separator, and joining the parts back gives `s`. */
  function Split(s: string, sep: char): (parts: seq<string>)
    ensures |parts| >= 1
    ensures forall i :: 0 <= i < |parts| ==> sep !in parts[i]
    ensures Join(parts, sep) == s
    decreases |s|
  {
    if |s| == 0 then [""]
    else
      var rest := Split(s[1..], sep);
      if s[0] == sep then
        assert s == [sep] + s[1..];
        [""] + rest
      else
        var parts := [[s[0]] + rest[0]] + rest[1..];
        JoinConsChar(s[0], rest, sep);
        assert s == [s[0]] + s[1..];
        parts
  }

  /** There is one part more than there are separators. */
  lemma {:induction false} SplitCount(s: string, sep: char)
    ensures |Split(s, sep)| == 1 + Occurrences(s, sep)
    decreases |s|
  {
    if |s| > 0 {
      SplitCount(s[1..], sep);
    }
  }

  lemma JoinConsChar(c: char, parts: seq<string>, sep: char)
    requires |parts| >= 1
    ensures Join([[c] + parts[0]] + parts[1..], sep) == [c] + Join(parts, sep)
  {
    var p := [[c] + parts[0]] + parts[1..];
    if |parts| > 1 {
      assert p[1..] == parts[1..];
    }
  }

  /** The other half of the round trip: splitting a join of separator-free
      parts gives the parts back. */
  lemma {:induction false} SplitJoin(parts: seq<string>, sep: char)
    requires |parts| >= 1
    requires forall i :: 0 <= i < |parts| ==> sep !in parts[i]
    ensures Split(Join(parts, sep), sep) == parts
    decreases |Join(parts, sep)|, |parts[0]|
  {
    var head := parts[0];
    if |parts| == 1 {
      if |head| > 0 {
        var tail := [head[1..]];
        SplitJoin(tail, sep);
        assert head == [head[0]] + head[1..];
        assert [[head[0]] + tail[0]] + tail[1..] == parts;
      }
    } else if |head| == 0 {
      var tail := parts[1..];
      SplitJoin(tail, sep);
      assert Join(parts, sep) == [sep] + Join(tail, sep);
      assert [""] + tail == parts;
    } else {
      var tail := [head[1..]] + parts[1..];
      assert tail[1..] == parts[1..];
      assert head == [head[0]] + head[1..];
      JoinConsChar(head[0], tail, sep);
      assert [[head[0]] + tail[0]] + tail[1..] == parts;
      var s := Join(parts, sep);
      assert s == [head[0]] + Join(tail, sep);
      assert s[1..] == Join(tail, sep);
      SplitJoin(tail, sep);
    }
  }

  predicate IsDigit(c: char) {
    '0' <= c <= '9'
  }

  predicate AllDigits(s: string) {
    forall i :: 0 <= i < |s| ==> IsDigit(s[i])
  }

  function DigitChar(d: nat): (c: char)
    requires d < 10
    ensures IsDigit(c)
  {
    ('0' as int + d) as char
  }

  /** Python's `int(s)` on a string of ASCII decimal digits (leading zeros allowed). */
  function DecimalValue(s: string): nat
    requires AllDigits(s)
    decreases |s|
  {
    if |s| == 0 then 0
    else DecimalValue(s[..|s| - 1]) * 10 + (s[|s| - 1] as int - '0' as int)
  }

  /** Python's `str(n)` for a non-negative integer. */
  function DecimalText(n: nat): (r: string)
    ensures |r| >= 1 && AllDigits(r)
    decreases n
  {
    if n < 10 then [DigitChar(n)] else DecimalText(n / 10) + [DigitChar(n % 10)]
  }

  /** `int(str(n)) == n`. */
  lemma {:induction false} DecimalRoundTrip(n: nat)
    ensures DecimalValue(DecimalText(n)) == n
    decreases n
  {
    var s := DecimalText(n);
    if n >= 10 {
      DecimalRoundTrip(n / 10);
      assert s[..|s| - 1] == DecimalText(n / 10);
    }
  }
}

=== FILE: wrappers.dfy ===
/** Failure-compatible datatypes shared by the whole model: Python's `None`
    becomes `Option.None`, and a raised-and-caught exception becomes
    `Result.Failure` carrying what the handler would see. */
module Wrappers {

  datatype Option<+T> = None | Some(value: T) {

    /** Returns the value in `Some`, or `default` for `None` (Python's `x or default`). */
    function GetOr(default: T): T {
      match this
      case Some(v) => v
      case None => default
    }
  }

  datatype Result<+R, +E> = Success(value: R) | Failure(error: E)
}
